=== FILE: README.md ===
# Task manager core, modelled in Dafny

A model of the logic at the heart of a small task-management application:
an Express/Mongoose API (tasks, notifications, analytics) and a React client
(task list, dashboard, notification list, session, forms). Every handler,
reducer and validator becomes a pure function over immutable datatypes:
collections are sequences of records with unique ids, a request is a
function from (state, input) to (state', result), and the outcome of a
network call is a parameter. The contracts state what each operation
promises, and the lemmas relate operations to each other.

Modules follow the source files:

- `Common`: Option/Result, the JavaScript whitespace set, trim, ASCII lower-casing, `includes`, split/join, filter, order-preserving subsequence, and half-up percentage rounding.
- `Sorting`: a stable sort on an integer key.
- `Http`: how a handler fails.
- `TaskModel`: the Task schema (backend/models/taskModel.js).
- `TaskController` and `TaskRoutes`: the task API (backend/controllers/taskController.js, backend/routes/taskRoutes.js).
- `NotificationController`: the inbox API.
- `Analytics`: overview counts and day-bucketed trends.
- `TaskContext`, `TaskList`, `Dashboard`, `NotificationContext`, `AuthContext`: the client's state and list transforms.
- `RegisterForm`, `TaskForm`, `ShareModal`, `TaskItem`: the client's validators, parsers and mappings.

Modelling choices:

- Times are integer milliseconds since the epoch. A calendar day is `ts / 86400000`.
- `Math.round(c / t * 100)` is exact half-up rounding on integers.
- Whitespace (`trim`, `\s`) is the full JavaScript set. `toLowerCase` changes ASCII letters only.
- A collection is in insertion order, the order a query without a sort returns.

Where the prose description of the system and the code differ, the code is followed:

- Reading, updating and deleting a task is gated on the task's `user` field alone, not on `owner` or `sharedWith`.
- The overview counts each visible task exactly once, so the three status counts add up to the total. That is stronger than the "sum at most total" one might expect.
- A whitespace-only title passes the route's check, because that check does not trim. The schema's trimming setter then refuses it at save time. `TaskRoutes.BlankTitleReachesSchema` shows this.

## Model

| member | source | states |
|---|---|---|
| TaskModel.ParseStatus | backend/models/taskModel.js:24-27 | a string denotes a status exactly when it is one of the three stored names, and each name denotes its own status |
| TaskModel.CastTitle | backend/models/taskModel.js:15-19 | the title is accepted iff present and not all whitespace; the stored title is the trimmed text, non-empty and trimmed; otherwise 'Please add a title' |
| TaskModel.CastStatus | backend/models/taskModel.js:24-29 | an absent status becomes Pending; a present one is accepted iff it names a status, and then its name is the input; otherwise the enum error for that value |
| TaskModel.CastDescription | backend/models/taskModel.js:20-23 | a description is kept present or absent as given, and a present one is stored trimmed |
| TaskModel.CreateDocument | backend/models/taskModel.js:1-47 | creation succeeds iff title and status cast, and otherwise reports exactly the failing paths; the document conforms to the schema, carries the requester as user, the trimmed title, the given due date, no owner, shares or attachments, status Pending by default, and createdAt = updatedAt = now |
| TaskModel.Failures | backend/models/taskModel.js:15-29 | validation reports nothing iff both paths are valid, and otherwise exactly the failing paths' errors, title first |
| TaskModel.BlankTitleMessage | backend/models/taskModel.js:17 | a blank title alone is reported as 'Task validation failed: title: Please add a title' |
| TaskController.FindById | backend/controllers/taskController.js:17 | finds a position holding the id, and finds none iff no document has it |
| TaskController.GetTasks | backend/controllers/taskController.js:8-11 | exactly the requester's tasks, in collection order, as many as there are positions holding one |
| TaskController.GetTaskById | backend/controllers/taskController.js:16-25 | succeeds iff a task with the id belongs to the requester, returning that task; a missing or foreign task gives the same 404 'Task not found' |
| TaskController.CreateTask | backend/controllers/taskController.js:30-53 | any validation message gives 400 'Invalid task data' and an unchanged store; otherwise creation succeeds iff the title and status cast, appending exactly the new conforming task owned by the requester with the trimmed title, given description, status and due date (Pending when absent), no owner, shares or attachments, and createdAt = updatedAt = now; a schema refusal is the uncaught ValidationError listing every failing path |
| TaskController.ApplyUpdate | backend/controllers/taskController.js:63-70 | fails iff a truthy title is blank or a truthy status is not a status name, and the error lists exactly those paths, title first; each field takes the incoming value only when it is truthy (due date when present); id, user, owner, shares, attachments and createdAt never change; updatedAt moves only when a field changed |
| TaskController.UpdateTask | backend/controllers/taskController.js:58-75 | a missing or foreign task gives 404 and an unchanged store; for the requester's task, success iff the patch validates, replacing exactly that task with its update, and otherwise the uncaught ValidationError with the store unchanged |
| TaskController.DeleteTask | backend/controllers/taskController.js:80-90 | a missing or foreign task gives 404 and removes nothing; otherwise 'Task removed', that id is gone, exactly one document is removed, every other is kept, and order is preserved |
| TaskController.UpdateIdempotent | backend/controllers/taskController.js:63-70 | applying the same patch again, at any later time, gives the same document |
| TaskController.UpdateTaskIdempotent | backend/controllers/taskController.js:58-75 | a second identical update request leaves the store and the reply as the first did |
| TaskController.CreatePreservesValid | backend/controllers/taskController.js:39-45 | creation keeps ids unique and every document conforming to the schema |
| TaskController.UpdatePreservesValid | backend/controllers/taskController.js:58-75 | an update keeps ids unique and every document conforming, createdAt never after updatedAt |
| TaskController.DeletePreservesValid | backend/controllers/taskController.js:80-90 | deletion keeps ids unique and every document conforming |
| TaskController.SubsequenceKeepsValid | backend/controllers/taskController.js:87 | any order-preserving selection of a well-formed collection is well-formed |
| TaskController.DeleteUndoesCreate | backend/controllers/taskController.js:30-90 | deleting the task just created restores the collection exactly |
| TaskRoutes.RoutesAreProtected | backend/routes/taskRoutes.js:16-44 | every route runs `protect` first; update and delete run nothing else before the handler |
| TaskRoutes.CreateValidationErrors | backend/routes/taskRoutes.js:22-25 | no message iff the title is present and non-empty and the status is absent or one of the three names; each message appears exactly when its check fails |
| TaskRoutes.ShareValidationErrors | backend/routes/taskRoutes.js:41 | no message iff userIds is an array of at least one element, otherwise exactly 'User IDs array is required' |
| TaskRoutes.Dispatch | backend/routes/taskRoutes.js:16-36 | without a credential nothing runs and the store is unchanged; with one, list, read, create, update and delete each give their handler's reply and leave the store their handler leaves, and an empty title or unknown status on create gives 400; errors change nothing |
| TaskRoutes.DispatchFollowsRoutes | backend/routes/taskRoutes.js:16-36 | every request Dispatch serves has its route in the route table, that route runs `protect` first, and without a credential the answer is 401 with the collection unchanged |
| TaskRoutes.BlankTitleReachesSchema | backend/routes/taskRoutes.js:22 | a title of spaces passes the route's check and is refused by the schema with 'Please add a title', leaving the store unchanged |
| NotificationController.GetNotifications | backend/controllers/notificationController.js:7-15 | min(n, 50) of the requester's notifications, newest first, holding none more often than the collection does; none left out is newer than one returned; with at most 50 all are returned |
| NotificationController.PageIsNewest | backend/controllers/notificationController.js:11-12 | the first 50 of the newest-first order are the newest: no notification of the requester left out is newer than one kept |
| NotificationController.MarkNotificationAsRead | backend/controllers/notificationController.js:20-37 | an unknown id gives 404 and a foreign one 403, checked in that order, both changing nothing; the recipient's request always succeeds, returning that notification read and changing nothing else |
| NotificationController.MarkReadIdempotent | backend/controllers/notificationController.js:33-36 | marking the same notification read again returns the same reply and changes nothing |
| NotificationController.MarkAllNotificationsAsRead | backend/controllers/notificationController.js:42-49 | always succeeds with the fixed message; afterwards the requester has no unread notification and every other recipient's is untouched |
| Analytics.StatusCountsPartition | backend/controllers/analyticsController.js:18-43 | the completed, pending and in-progress counts of the visible tasks add up to the number of visible tasks |
| Analytics.GetAnalyticsOverview | backend/controllers/analyticsController.js:7-54 | the total counts each task visible through owner, user or sharedWith once; completed, pending and in-progress each count the visible tasks of that status and sum to the total; the rate is 0 for no tasks and otherwise completed/total as a percentage rounded half up, at most 100 |
| Analytics.ListedTasksAreCounted | backend/controllers/analyticsController.js:10-16 | every task the list endpoint returns to a user is counted in that user's overview |
| Analytics.CompletingRaisesRate | backend/controllers/analyticsController.js:18-45 | completing an open visible task keeps the total, adds one completed task and never lowers the rate |
| Analytics.WindowDays | backend/controllers/analyticsController.js:61-76 | the window is 7 days iff the period is 'weekly', and 30 days for anything else |
| Analytics.Runs | backend/controllers/analyticsController.js:78-98 | grouping sorted day keys gives one entry per distinct day, days strictly ascending, every count positive |
| Analytics.RunsCount | backend/controllers/analyticsController.js:78-98 | the count recorded for a day is the number of keys equal to that day |
| Analytics.SeriesCounts | backend/controllers/analyticsController.js:78-123 | each day's bucket counts exactly the selected tasks stamped on that day, and the buckets add up to the number of selected tasks |
| Analytics.GetAnalyticsTrends | backend/controllers/analyticsController.js:59-130 | the period is echoed with 'weekly' as the default; both series are well formed; the creation buckets add up to the visible tasks created since the cutoff, and the completion buckets to the visible completed tasks updated since it |
| Analytics.CreationTrendsPerDay | backend/controllers/analyticsController.js:78-98 | each day's creation count is the number of visible tasks created that day at or after the cutoff |
| Analytics.CompletionTrendsPerDay | backend/controllers/analyticsController.js:100-123 | each day's completion count is the number of visible completed tasks last updated that day at or after the cutoff |
| TaskContext.FilterTasks | frontend/src/context/TaskContext.tsx:270-275 | 'All' returns the list unchanged; any other status returns exactly the tasks with that status name, in order, as many as the list holds |
| TaskContext.SearchTasks | frontend/src/context/TaskContext.tsx:278-289 | an empty term returns the list unchanged; otherwise a task is kept iff its lower-cased title contains the lower-cased term or it has a non-empty description that does, in order, as many as the list holds |
| TaskContext.SearchIgnoresCase | frontend/src/context/TaskContext.tsx:283-288 | a term and its lower-case form select the same tasks |
| TaskContext.GetTaskProgress | frontend/src/context/TaskContext.tsx:292-302 | 0 for an empty list, otherwise the completed share as a percentage rounded half up, at most 100, and 100 when all are completed |
| TaskContext.ProgressMatchesOverview | frontend/src/context/TaskContext.tsx:292-302 | for tasks all visible to a user, the client's progress equals the overview's completion rate |
| Common.MessageOr | frontend/src/context/TaskContext.tsx:94 | the server's message when it is non-empty, otherwise the fallback |
| TaskContext.AfterGetTasks | frontend/src/context/TaskContext.tsx:85-98 | success replaces the list and clears the error; failure keeps the list and sets the server's message or 'Failed to fetch tasks' |
| TaskContext.AfterGetTask | frontend/src/context/TaskContext.tsx:115-128 | success makes the response the current task; failure sets the error; the list is untouched |
| TaskContext.AfterCreate | frontend/src/context/TaskContext.tsx:145-166 | success appends the created task to the old list and sets success; failure keeps the list and sets the error |
| TaskContext.ReplaceById | frontend/src/context/TaskContext.tsx:189-191 | same length; entries with the id become the response, and all others are unchanged |
| TaskContext.AfterUpdate | frontend/src/context/TaskContext.tsx:183-209 | success replaces the entries with the id and makes the response current; failure keeps list and task and sets the error |
| TaskContext.AfterDelete | frontend/src/context/TaskContext.tsx:226-247 | success leaves no entry with the id and keeps every other entry, each occurrence, in order; failure keeps the list and sets the error |
| TaskContext.ClearTask | frontend/src/context/TaskContext.tsx:255-256 | the current task is forgotten; list and error are kept |
| TaskContext.DeleteUndoesCreate | frontend/src/context/TaskContext.tsx:145-247 | deleting a freshly created task restores the list it was appended to |
| TaskContext.UpdateIdempotent | frontend/src/context/TaskContext.tsx:189-191 | applying the same successful update twice leaves the list as once |
| TaskContext.FilterAndSearchCommute | frontend/src/context/TaskContext.tsx:270-289 | the status filter and the search commute |
| TaskList.FilteredTasks | frontend/src/pages/TaskList.tsx:29-49 | equals a single filter of the list by the page test: a task is shown iff it passes the status choice ('All' passes everything) and the search (an empty term passes everything), every occurrence, in list order |
| TaskList.SameAsContextQueries | frontend/src/pages/TaskList.tsx:34-46 | the page's filter is the context's filter followed by its search, and also its search followed by its filter |
| TaskList.NoFilterShowsAll | frontend/src/pages/TaskList.tsx:34-46 | with 'All' and an empty search the whole list is shown, in order |
| Dashboard.RecentTasks | frontend/src/pages/Dashboard.tsx:25-27 | min(3, n) tasks from the list, newest first, none repeated beyond its occurrences in the list, and no task left out is newer than one shown |
| Dashboard.FirstThat | frontend/src/pages/Dashboard.tsx:31-51 | the first min(3, m) of the m tasks passing the test, in list order |
| Dashboard.Refresh | frontend/src/pages/Dashboard.tsx:22-54 | with no tasks the lists shown before are kept; otherwise recent, upcoming (open, due between now and a week ahead) and overdue (open, due before now) are recomputed |
| Dashboard.DueListsAreDisjoint | frontend/src/pages/Dashboard.tsx:35-51 | the upcoming and overdue lists hold only open tasks with a due date, and never share a task |
| NotificationContext.UnreadCount | frontend/src/context/NotificationContext.tsx:98 | the number of positions holding an unread entry; hence at most the length, and 0 iff every entry is read |
| NotificationContext.AfterFetch | frontend/src/context/NotificationContext.tsx:60-72 | nothing happens when signed out; a response replaces the list; a failure keeps it |
| NotificationContext.MarkRead | frontend/src/context/NotificationContext.tsx:77-81 | same length; entries with the id become read; all others are unchanged |
| NotificationContext.MarkAsRead | frontend/src/context/NotificationContext.tsx:74-85 | a failed request changes nothing; a confirmed one marks the entries with the id read |
| NotificationContext.MarkAllAsRead | frontend/src/context/NotificationContext.tsx:87-96 | a failed request changes nothing; a confirmed one replaces each entry, in place, by itself marked read, leaving no unread entry |
| NotificationContext.Push | frontend/src/context/NotificationContext.tsx:101-119 | one unread entry is prepended carrying the event's type, message and task id, with the clock reading as id and creation time; the old list is the tail, and the unread count rises by one |
| NotificationContext.MarkReadLowersCount | frontend/src/context/NotificationContext.tsx:74-98 | marking an id read lowers the unread count by exactly the number of unread entries with that id |
| NotificationContext.MarkReadIdempotent | frontend/src/context/NotificationContext.tsx:77-81 | marking the same id read twice equals marking it once |
| NotificationContext.PushThenMarkRead | frontend/src/context/NotificationContext.tsx:74-119 | marking a pushed entry read brings the unread count back to what it was before the push |
| AuthContext.LoadUserAsWritten | frontend/src/context/AuthContext.tsx:40-58 | loadUser as written: a saved user is restored and authenticated; malformed text is removed; text that parses to null authenticates a session with no user |
| AuthContext.LoadUserAsWrittenBreaksInvariant | frontend/src/context/AuthContext.tsx:44-51 | from the initial session, stored text "null" yields an authenticated session without a user |
| AuthContext.LoadUser | frontend/src/context/AuthContext.tsx:40-58 | loadUser corrected: only a saved user authenticates; malformed text is removed; loading ends; the invariant is preserved; the result equals the as-written one except for "null" |
| AuthContext.SignIn | frontend/src/context/AuthContext.tsx:60-101 | success saves and signs in the returned user and clears the error; failure leaves the session unauthenticated with the server's message or the fallback, storage kept |
| AuthContext.Register | frontend/src/context/AuthContext.tsx:60-80 | a returned user is signed in; a failure reports the server's message or 'Registration failed' |
| AuthContext.Login | frontend/src/context/AuthContext.tsx:82-101 | a returned user is signed in; a failure reports the server's message or 'Invalid credentials' |
| AuthContext.Logout | frontend/src/context/AuthContext.tsx:103-107 | storage cleared, no user, not authenticated |
| AuthContext.ClearError | frontend/src/context/AuthContext.tsx:109-111 | the error is cleared and nothing else changes |
| AuthContext.RunKeepsConsistent | frontend/src/context/AuthContext.tsx:40-111 | any sequence of loads, registrations, logins, logouts and error dismissals keeps "authenticated implies a user" |
| AuthContext.LogoutThenLoadStaysSignedOut | frontend/src/context/AuthContext.tsx:40-107 | after logging out, restoring from storage finds no user |
| AuthContext.LoginThenLoadRestores | frontend/src/context/AuthContext.tsx:40-101 | a signed-in user is restored by the next load |
| RegisterForm.MatchesEmailShape | frontend/src/pages/Register.tsx:70 | true iff the text matches /^\S+@\S+\.\S+$/: no whitespace, an '@' after the first character, and a later '.' with characters between and after |
| RegisterForm.PasswordMessage | frontend/src/pages/Register.tsx:76-82 | empty gives 'Password is required', fewer than 6 characters gives the length message, otherwise no message |
| RegisterForm.ValidateForm | frontend/src/pages/Register.tsx:51-92 | one message per field, each independent of the others; the form is valid iff all four are empty |
| RegisterForm.HandleSubmit | frontend/src/pages/Register.tsx:94-102 | register is called, with the form's values, iff the form is valid, and then the name is not blank, the email is well shaped and the confirmed password has at least 6 characters |
| RegisterForm.LeadingSpaceIsInvalid | frontend/src/pages/Register.tsx:67-73 | an address with a leading space is not blank but fails the shape check |
| TaskForm.ValidateForm | frontend/src/pages/TaskForm.tsx:75-88 | valid iff the title is not all whitespace; otherwise 'Title is required' |
| TaskForm.ToPayload | frontend/src/pages/TaskForm.tsx:101-104 | fields pass through unchanged; an empty due date is left out |
| TaskForm.HandleSubmit | frontend/src/pages/TaskForm.tsx:94-115 | nothing is sent iff the title is blank; otherwise the payload goes to update for a routed id and to create otherwise |
| TaskForm.Prefill | frontend/src/pages/TaskForm.tsx:42-51 | in edit mode with a loaded task the form takes its values, with '' for a missing title, description or due date and 'Pending' for a missing status; otherwise the form is kept |
| TaskForm.HandleChange | frontend/src/pages/TaskForm.tsx:59-73 | the field takes the typed value; typing in the title clears its error, and other fields keep it |
| TaskForm.TypingTitleClearsError | frontend/src/pages/TaskForm.tsx:59-88 | typing a non-blank title clears the title error and makes the form valid; typing in another field leaves validity as it was |
| TaskForm.UnchangedEditResendsTask | frontend/src/pages/TaskForm.tsx:42-115 | saving a prefilled form unchanged sends the task's own values back as an update |
| ShareModal.ParseEmails | frontend/src/components/modals/ShareTaskModal.tsx:33-36 | the entries are non-empty, trimmed and comma-free, at most one more than the commas, drawn in order from the trimmed comma-split pieces, and each non-empty piece is kept as many times as it occurs |
| ShareModal.ParseJoined | frontend/src/components/modals/ShareTaskModal.tsx:33-36 | joining trimmed, non-empty, comma-free addresses with commas and parsing the text gives the addresses back |
| ShareModal.HandleSubmit | frontend/src/components/modals/ShareTaskModal.tsx:25-62 | blank input asks for an address; input with no entries is invalid; the share call is made iff there is at least one entry, with exactly the parsed list; success raises the banner and a failure shows the server's message or the fallback; the banner is never lowered by the handler |
| ShareModal.OnlyCommasAreInvalid | frontend/src/components/modals/ShareTaskModal.tsx:38-41 | ",," is refused as invalid rather than missing, and nothing is sent |
| TaskItem.ProgressFromStatus | frontend/src/components/tasks/TaskItem.tsx:34-45 | 0 exactly for Pending and anything unrecognised, 50 exactly for In Progress, 100 exactly for Completed |
| TaskItem.StatusBadgeClass | frontend/src/components/tasks/TaskItem.tsx:20-31 | 'badge-pending' exactly for Pending and anything unrecognised, 'badge-progress' exactly for In Progress, 'badge-completed' exactly for Completed |
| TaskItem.ProgressFollowsStatus | frontend/src/components/tasks/TaskItem.tsx:20-45 | progress never falls from Pending through In Progress to Completed, and distinct statuses get distinct badges |
| Common.JoinSplit | frontend/src/components/modals/ShareTaskModal.tsx:33 | joining the pieces of a split with the separator gives the text back |
| Common.SplitJoin | frontend/src/components/modals/ShareTaskModal.tsx:33 | splitting a join of separator-free pieces gives the pieces back |
| Common.CountIsPositions | backend/controllers/analyticsController.js:10-43 | the number of elements passing a test is the number of positions holding one |
| Common.TakeWithinMultiset | frontend/src/pages/Dashboard.tsx:25-27 | a prefix holds no element more often than the whole |
| Common.Trim | backend/models/taskModel.js:18 | the result is trimmed, is a slice of the input, and is empty iff the input is all whitespace |
| Common.TrimIdempotent | backend/models/taskModel.js:18 | trimming twice is trimming once |
| Common.RoundPercent | backend/controllers/analyticsController.js:45 | the half-up percentage: within half a percent of the exact share, at most 100 |
| Common.RoundPercentMonotonic | backend/controllers/analyticsController.js:45 | more completed tasks of the same total never give a lower percentage |
| Sorting.SortBy | backend/controllers/notificationController.js:11 | a permutation of the input with keys ascending |
| Sorting.PrefixHasSmallestKeys | backend/controllers/notificationController.js:11-12 | the first k elements of the sorted order have keys no larger than any element left out |

## Left out

- Server, database and socket wiring are not modelled: the HTTP server, the Mongo connection, Socket.IO rooms and logging. Every database call becomes an operation on a sequence, and every network round trip becomes a parameter (`Response`, `Outcome`, `succeeded`).
- `populate` joins in getNotifications are left out. A notification carries the sender's id only.
- `getSharedTasks` and `shareTask` are imported by the task router but the task controller does not define them. Under ES-module loading, importing a missing named export fails when the module is linked, so the task router as written never loads and no task route is served. `TaskRoutes.Dispatch` models the router as if the module loaded, dispatching the five defined handlers. The two missing routes are modelled only as far as the router shows them: the chain and the userIds check.
- The code that creates notifications is not part of this model.
- The notification schema is not part of this model. Its fields are inferred from the controller and the client.
- The `owner` field: the schema declares it required, but createTask never sets it. Created tasks have no owner here, and `owner` is used only by the analytics visibility test. The save rejection Mongoose would raise for a missing owner is not modelled.
- Save failures are modelled as `Uncaught` carrying the ValidationError's message, 'Task validation failed: ' followed by `path: message` for each failing path. Only the title and status paths are validated here. The missing `owner` is not reported, and paths are listed in schema order. The application's error middleware, which chooses the final status code, is not part of this model.
- Task ids are natural numbers, so every `:id` is well-formed. In the source, a malformed `:id` makes findById throw a CastError, which the error middleware answers instead of the handler's 404. That path is not modelled.
- The client fetches tasks only when signed in. That check sits inside an unresolved merge-conflict region of TaskContext.tsx, as does `useCallback`. Only the lines common to both sides are modelled. The same holds for the conflicting lines of TaskForm.tsx.
- ShareTaskModal calls `shareTask` from the task context, which does not provide it. HandleSubmit is modelled for any outcome of the call.
- AuthContext.SignIn: models a successful register or login body as a `User`, and saves exactly that (`Saved(outcome.user)`). The source saves and sets `res.data`, the whole response body, unchecked (AuthContext.tsx:68-69 and 89-90). A null body would therefore store the text "null" and authenticate with user null. That is the route by which "null" reaches storage in the finding below. The server's reply is not modelled beyond this.
- Local storage is an input (`Stored`). Only the four cases loadUser distinguishes are kept. JSON that parses to some value other than a user or null is not modelled.
- React scheduling and effect dependencies are not modelled. Neither are toasts, `setTimeout` success resets, console logging and navigation after submit.
- Common.ToLower: lower-cases ASCII letters only, because JavaScript's Unicode case mapping is large table data. The model agrees with `toLowerCase` on ASCII text.
- Common.RoundPercent: computes exact half-up rounding, whereas the source uses floating-point `Math.round(c / t * 100)`. The two can differ only where binary rounding lands exactly on a half.
- Analytics.Day: the day is `ts / 86400000` in UTC, whereas the source groups on the "%Y-%m-%d" string. The two orders agree for years 0 to 9999.
- Dashboard.Refresh: the week ahead is `now + 7 * 86400000` ms, whereas the source uses `setDate(+7)`. The two differ by an hour across a daylight-saving change.
- TaskForm.Prefill: takes the loaded due date already written as "YYYY-MM-DD". The `toISOString().split('T')[0]` conversion is not modelled.
- String lengths count characters, not UTF-16 code units. This matters only for the password-length check on characters outside the Basic Multilingual Plane.
- Presentational components, the upload middleware, the user and auth controllers and the remaining route files are not part of this model.

## Findings

| source | as written | input that shows it | evidently intended | confidence | as-written member | corrected member |
|---|---|---|---|---|---|---|
| frontend/src/context/AuthContext.tsx:44-51 | any stored text that JSON.parse accepts is taken as the user and the session is marked authenticated | the 'user' storage key holding the text "null": the session becomes authenticated with user null | only a stored user authenticates; text parsing to null is treated like no stored user, so isAuthenticated implies a user | not executed | AuthContext.LoadUserAsWrittenBreaksInvariant | AuthContext.RunKeepsConsistent |

=== FILE: analytics.dfy ===
/** The two reports of backend/controllers/analyticsController.js: the
    overview counts of the tasks a user can see, and the per-day series of
    tasks created and completed within the last week or month. */
module Analytics {

  import opened Common
  import opened Sorting
  import opened TaskModel
  import opened TaskController

  /** The query every report starts from: the user owns the task, created
      it, or is among those it is shared with. A task meeting several of
      these is still one task. */
  predicate Visible(t: Task, u: UserId) {
    t.owner == Some(u) || t.user == u || u in t.sharedWith
  }

  function VisibleTo(u: UserId): Task -> bool {
    t => Visible(t, u)
  }

  function VisibleWithStatus(u: UserId, st: Status): Task -> bool {
    t => Visible(t, u) && t.status == st
  }

  // ---------------------------------------------------------------------------
  // GET /api/analytics/overview
  // ---------------------------------------------------------------------------

  datatype Overview = Overview(
    totalTasks: nat,
    completedTasks: nat,
    pendingTasks: nat,
    inProgressTasks: nat,
    completionRate: nat)

  /** Each visible task has exactly one of the three statuses, so the three
      status counts add up to the total. */
  lemma {:induction false} StatusCountsPartition(s: seq<Task>, u: UserId)
    ensures CountWhere(s, VisibleWithStatus(u, Completed)) + CountWhere(s, VisibleWithStatus(u, Pending))
            + CountWhere(s, VisibleWithStatus(u, InProgress)) == CountWhere(s, VisibleTo(u))
  {
    if |s| > 0 {
      StatusCountsPartition(s[1..], u);
      assert s == [s[0]] + s[1..];
      FilterCons(s[0], s[1..], VisibleWithStatus(u, Completed));
      FilterCons(s[0], s[1..], VisibleWithStatus(u, Pending));
      FilterCons(s[0], s[1..], VisibleWithStatus(u, InProgress));
      FilterCons(s[0], s[1..], VisibleTo(u));
    }
  }

  /** getAnalyticsOverview: the number of visible tasks, split by status,
      and the share completed as a whole percentage rounded half up (0 when
      there are none). */
  function GetAnalyticsOverview(store: Store, u: UserId): (r: Overview)
    ensures r.totalTasks == CountWhere(store, VisibleTo(u)) <= |store|
    ensures r.completedTasks == CountWhere(store, VisibleWithStatus(u, Completed))
    ensures r.pendingTasks == CountWhere(store, VisibleWithStatus(u, Pending))
    ensures r.inProgressTasks == CountWhere(store, VisibleWithStatus(u, InProgress))
    ensures r.completedTasks + r.pendingTasks + r.inProgressTasks == r.totalTasks
    ensures r.totalTasks == 0 ==> r.completionRate == 0
    ensures r.totalTasks > 0 ==> r.completionRate == RoundPercent(r.completedTasks, r.totalTasks)
    ensures r.totalTasks > 0 ==> (2 * r.completionRate - 1) * r.totalTasks <= 200 * r.completedTasks
                                                                  < (2 * r.completionRate + 1) * r.totalTasks
    ensures r.completionRate <= 100
    ensures r.totalTasks > 0 && r.completedTasks == r.totalTasks ==> r.completionRate == 100
  {
    var total := CountWhere(store, VisibleTo(u));
    var completed := CountWhere(store, VisibleWithStatus(u, Completed));
    var pending := CountWhere(store, VisibleWithStatus(u, Pending));
    var inProgress := CountWhere(store, VisibleWithStatus(u, InProgress));
    StatusCountsPartition(store, u);
    Overview(total, completed, pending, inProgress, RoundPercent(completed, total))
  }

  /** Every task the list endpoint returns to a user is counted in that
      user's overview. */
  lemma ListedTasksAreCounted(store: Store, u: UserId)
    ensures |GetTasks(store, u)| <= GetAnalyticsOverview(store, u).totalTasks
  {
    SubsequenceWithinCount(GetTasks(store, u), store, VisibleTo(u));
  }

  /** Completing a visible task that was pending or in progress raises the
      completion rate or leaves it unchanged; the total stays the same. */
  lemma CompletingRaisesRate(store: Store, u: UserId, i: nat)
    requires i < |store| && Visible(store[i], u) && store[i].status != Completed
    ensures var after := GetAnalyticsOverview(store[i := store[i].(status := Completed)], u);
            var before := GetAnalyticsOverview(store, u);
            && after.totalTasks == before.totalTasks
            && after.completedTasks == before.completedTasks + 1
            && after.completionRate >= before.completionRate
  {
    var t := store[i];
    var done := t.(status := Completed);
    CountAfterReplace(store, i, done, VisibleTo(u));
    CountAfterReplace(store, i, done, VisibleWithStatus(u, Completed));
    assert |Keep(t, VisibleTo(u))| == |Keep(done, VisibleTo(u))| == 1;
    assert |Keep(t, VisibleWithStatus(u, Completed))| == 0;
    assert |Keep(done, VisibleWithStatus(u, Completed))| == 1;
    RoundPercentMonotonic(CountWhere(store, VisibleWithStatus(u, Completed)),
                          CountWhere(store[i := done], VisibleWithStatus(u, Completed)),
                          CountWhere(store, VisibleTo(u)));
  }

  // ---------------------------------------------------------------------------
  // GET /api/analytics/trends
  // ---------------------------------------------------------------------------

  /** The UTC calendar day of a time, counted from the epoch. The source groups
      by the "%Y-%m-%d" string of the day; for years 0 to 9999 those strings
      sort as the day numbers do. */
  function Day(ts: Timestamp): int {
    ts / DayMs
  }

  /** The query's `period`, defaulting to "weekly" only when absent. */
  function PeriodName(period: Option<string>): string {
    match period
    case None => "weekly"
    case Some(p) => p
  }

  /** Seven days for "weekly", thirty for any other period. */
  function WindowDays(period: string): (n: nat)
    ensures n == 7 <==> period == "weekly"
    ensures n == 30 <==> period != "weekly"
  {
    if period == "weekly" then 7 else 30
  }

  function Cutoff(period: string, now: Timestamp): Timestamp {
    now - WindowDays(period) * DayMs
  }

  function CreatedSince(u: UserId, cutoff: Timestamp): Task -> bool {
    t => Visible(t, u) && t.createdAt >= cutoff
  }

  function CompletedSince(u: UserId, cutoff: Timestamp): Task -> bool {
    t => Visible(t, u) && t.status == Completed && t.updatedAt >= cutoff
  }

  function CreatedAt(t: Task): Timestamp { t.createdAt }
  function UpdatedAt(t: Task): Timestamp { t.updatedAt }

  /** One element of a series: a day and how many tasks fell on it. */
  datatype DayCount = DayCount(day: int, count: nat)

  datatype Trends = Trends(creationTrends: seq<DayCount>, completionTrends: seq<DayCount>, period: string)

  /** Strictly ascending days, none of them with a zero count. */
  predicate WellFormedSeries(r: seq<DayCount>) {
    && (forall i, j :: 0 <= i < j < |r| ==> r[i].day < r[j].day)
    && (forall k :: 0 <= k < |r| ==> r[k].count > 0)
  }

  /** The count the series gives a day; 0 when the day is not in it. */
  function CountOn(r: seq<DayCount>, d: int): nat {
    if |r| == 0 then 0
    else if r[0].day == d then r[0].count
    else CountOn(r[1..], d)
  }

  function Total(r: seq<DayCount>): nat {
    if |r| == 0 then 0 else r[0].count + Total(r[1..])
  }

  /** The day of each task, in order. */
  function DaysOf(s: seq<Task>, stamp: Task -> Timestamp): (r: seq<int>)
    ensures |r| == |s|
    ensures forall i :: 0 <= i < |s| ==> r[i] == Day(stamp(s[i]))
  {
    if |s| == 0 then [] else [Day(stamp(s[0]))] + DaysOf(s[1..], stamp)
  }

  function Identity(d: int): int { d }

  /** The $group/$sort stages on an ascending sequence of days: one element
      per distinct day, counting its occurrences. */
  function Runs(s: seq<int>): (r: seq<DayCount>)
    requires SortedBy(s, Identity)
    ensures WellFormedSeries(r)
    ensures |r| == 0 <==> |s| == 0
    ensures |r| > 0 ==> r[0].day == s[0]
  {
    if |s| == 0 then []
    else
      var rest := Runs(s[1..]);
      if |rest| > 0 && rest[0].day == s[0] then
        SeriesTail(rest);
        PrependDay(DayCount(s[0], rest[0].count + 1), rest[1..]);
        [DayCount(s[0], rest[0].count + 1)] + rest[1..]
      else
        assert |rest| > 0 ==> Identity(s[0]) <= Identity(s[1]);
        PrependDay(DayCount(s[0], 1), rest);
        [DayCount(s[0], 1)] + rest
  }

  lemma SeriesTail(r: seq<DayCount>)
    requires WellFormedSeries(r) && |r| > 0
    ensures WellFormedSeries(r[1..])
    ensures |r| > 1 ==> r[0].day < r[1..][0].day
  {
  }

  /** A day before every day of a well-formed series, with a positive count,
      can go in front of it. */
  lemma PrependDay(x: DayCount, rest: seq<DayCount>)
    requires WellFormedSeries(rest) && x.count > 0
    requires |rest| > 0 ==> x.day < rest[0].day
    ensures WellFormedSeries([x] + rest)
  {
    var r := [x] + rest;
    forall i, j | 0 <= i < j < |r| ensures r[i].day < r[j].day {
      assert r[j] == rest[j - 1];
      if i > 0 {
        assert r[i] == rest[i - 1];
      } else if j > 1 {
        assert rest[0].day < rest[j - 1].day;
      }
    }
  }

  /** The series of the given days: grouped by day, ascending. */
  function GroupByDay(days: seq<int>): (r: seq<DayCount>)
    ensures WellFormedSeries(r)
  {
    Runs(SortBy(days, Identity))
  }

  /** Each day's count in the runs is the number of times it occurs. */
  lemma {:induction false} RunsCount(s: seq<int>, d: int)
    requires SortedBy(s, Identity)
    ensures CountOn(Runs(s), d) == multiset(s)[d]
  {
    if |s| > 0 {
      var tail := s[1..];
      var rest := Runs(tail);
      RunsCount(tail, d);
      assert s == [s[0]] + tail;
      assert multiset(s)[d] == (if s[0] == d then 1 else 0) + multiset(tail)[d];
      if |rest| > 0 && rest[0].day == s[0] {
        assert Runs(s) == [DayCount(s[0], rest[0].count + 1)] + rest[1..];
        assert CountOn(rest, d) == if d == s[0] then rest[0].count else CountOn(rest[1..], d);
      } else {
        assert Runs(s) == [DayCount(s[0], 1)] + rest;
        if d == s[0] {
          HeadNotInTail(s);
        }
      }
    }
  }

  /** In an ascending sequence whose runs start with a new day, the first day
      does not occur again. */
  lemma HeadNotInTail(s: seq<int>)
    requires SortedBy(s, Identity) && |s| > 0
    requires |Runs(s[1..])| > 0 ==> Runs(s[1..])[0].day != s[0]
    ensures multiset(s[1..])[s[0]] == 0
  {
    if |s| > 1 {
      assert forall k :: 1 <= k < |s| ==> Identity(s[1]) <= Identity(s[k]);
      assert s[0] !in s[1..];
    }
  }

  lemma {:induction false} RunsTotal(s: seq<int>)
    requires SortedBy(s, Identity)
    ensures Total(Runs(s)) == |s|
  {
    if |s| > 0 {
      RunsTotal(s[1..]);
      var rest := Runs(s[1..]);
      if |rest| > 0 && rest[0].day == s[0] {
        assert rest == [rest[0]] + rest[1..];
      }
    }
  }

  function OnDay(p: Task -> bool, stamp: Task -> Timestamp, d: int): Task -> bool {
    t => p(t) && Day(stamp(t)) == d
  }

  /** A day occurs among the days of the selected tasks as often as there are
      selected tasks on that day. */
  lemma {:induction false} DaysOfFilterCount(s: seq<Task>, p: Task -> bool, stamp: Task -> Timestamp, d: int)
    ensures multiset(DaysOf(Filter(s, p), stamp))[d] == CountWhere(s, OnDay(p, stamp, d))
  {
    if |s| > 0 {
      DaysOfFilterCount(s[1..], p, stamp, d);
      assert s == [s[0]] + s[1..];
      DaysOfFilterStep(s[0], s[1..], p, stamp, d);
      FilterCons(s[0], s[1..], OnDay(p, stamp, d));
    }
  }

  lemma DaysOfFilterStep(x: Task, tail: seq<Task>, p: Task -> bool, stamp: Task -> Timestamp, d: int)
    ensures multiset(DaysOf(Filter([x] + tail, p), stamp))[d]
            == |Keep(x, OnDay(p, stamp, d))| + multiset(DaysOf(Filter(tail, p), stamp))[d]
  {
    FilterCons(x, tail, p);
    if p(x) {
      DaysOfCons(x, Filter(tail, p), stamp);
    }
  }

  lemma DaysOfCons(x: Task, r: seq<Task>, stamp: Task -> Timestamp)
    ensures DaysOf([x] + r, stamp) == [Day(stamp(x))] + DaysOf(r, stamp)
  {
    assert ([x] + r)[1..] == r;
  }

  /** The series for the tasks `p` selects, grouped by the day of `stamp`. */
  function Series(store: Store, p: Task -> bool, stamp: Task -> Timestamp): (r: seq<DayCount>)
    ensures WellFormedSeries(r)
  {
    GroupByDay(DaysOf(Filter(store, p), stamp))
  }

  /** Each day's count in a series is the number of selected tasks on that
      day, and the counts add up to the number of selected tasks. */
  lemma SeriesCounts(store: Store, p: Task -> bool, stamp: Task -> Timestamp, d: int)
    ensures CountOn(Series(store, p, stamp), d) == CountWhere(store, OnDay(p, stamp, d))
    ensures Total(Series(store, p, stamp)) == CountWhere(store, p)
  {
    var days := DaysOf(Filter(store, p), stamp);
    RunsCount(SortBy(days, Identity), d);
    RunsTotal(SortBy(days, Identity));
    DaysOfFilterCount(store, p, stamp, d);
  }

  /** getAnalyticsTrends: over the visible tasks, those created within the
      window grouped by the day of creation, and those completed whose last
      update falls within the window grouped by the day of that update; the
      period is echoed back. */
  function GetAnalyticsTrends(store: Store, u: UserId, period: Option<string>, now: Timestamp): (r: Trends)
    ensures r.period == (if period.None? then "weekly" else period.value)
    ensures WellFormedSeries(r.creationTrends) && WellFormedSeries(r.completionTrends)
    ensures Total(r.creationTrends) == CountWhere(store, CreatedSince(u, Cutoff(r.period, now)))
    ensures Total(r.completionTrends) == CountWhere(store, CompletedSince(u, Cutoff(r.period, now)))
  {
    var name := PeriodName(period);
    var cutoff := Cutoff(name, now);
    SeriesCounts(store, CreatedSince(u, cutoff), CreatedAt, 0);
    SeriesCounts(store, CompletedSince(u, cutoff), UpdatedAt, 0);
    Trends(Series(store, CreatedSince(u, cutoff), CreatedAt),
           Series(store, CompletedSince(u, cutoff), UpdatedAt),
           name)
  }

  /** Day by day: the creation series counts the visible tasks created that
      day, provided the day is not before the window's cutoff time. */
  lemma CreationTrendsPerDay(store: Store, u: UserId, period: Option<string>, now: Timestamp, d: int)
    ensures var r := GetAnalyticsTrends(store, u, period, now);
            CountOn(r.creationTrends, d)
            == CountWhere(store, OnDay(CreatedSince(u, Cutoff(r.period, now)), CreatedAt, d))
  {
    SeriesCounts(store, CreatedSince(u, Cutoff(PeriodName(period), now)), CreatedAt, d);
  }

  lemma CompletionTrendsPerDay(store: Store, u: UserId, period: Option<string>, now: Timestamp, d: int)
    ensures var r := GetAnalyticsTrends(store, u, period, now);
            CountOn(r.completionTrends, d)
            == CountWhere(store, OnDay(CompletedSince(u, Cutoff(r.period, now)), UpdatedAt, d))
  {
    SeriesCounts(store, CompletedSince(u, Cutoff(PeriodName(period), now)), UpdatedAt, d);
  }
}

=== FILE: auth_context.dfy ===
/** The session of frontend/src/context/AuthContext.tsx: restoring the user
    saved in the browser's storage, register, login, logout and clearError,
    as transitions of an immutable state, with the invariant that an
    authenticated session has a user. */
module AuthContext {

  import opened Common

  datatype User = User(id: string, name: string, email: string, token: string)

  datatype Session = Session(user: Option<User>, isAuthenticated: bool, loading: bool, error: Option<string>)

  /** What the 'user' storage key holds, as `loadUser` sees it: nothing (or an
      empty string, which is falsy), text JSON.parse rejects, the text "null",
      or a saved user. */
  datatype Stored = Absent | Malformed | NullText | Saved(user: User)

  /** The session together with what the browser's storage holds. */
  datatype Auth = Auth(session: Session, stored: Stored)

  const Initial: Session := Session(None, false, true, None)

  /** The invariant every component relies on. */
  predicate Consistent(s: Session) {
    s.isAuthenticated ==> s.user.Some?
  }

  // ---------------------------------------------------------------------------
  // loadUser: as written, and corrected
  // ---------------------------------------------------------------------------

  /** loadUser as written: any text that parses is taken as the user, and the
      session becomes authenticated, even when the text is "null". */
  function LoadUserAsWritten(a: Auth): (r: Auth)
    ensures !r.session.loading && r.session.error == a.session.error
    ensures a.stored.Saved? ==> r.session.user == Some(a.stored.user) && r.session.isAuthenticated
    ensures a.stored.Malformed? ==> r.stored == Absent && r.session == a.session.(loading := false)
    ensures a.stored.Absent? ==> r == Auth(a.session.(loading := false), Absent)
    ensures a.stored.NullText? ==> r.session.user.None? && r.session.isAuthenticated
  {
    match a.stored
    case Absent => Auth(a.session.(loading := false), a.stored)
    case Malformed => Auth(a.session.(loading := false), Absent)
    case NullText => Auth(a.session.(user := None, isAuthenticated := true, loading := false), a.stored)
    case Saved(u) => Auth(a.session.(user := Some(u), isAuthenticated := true, loading := false), a.stored)
  }

  /** With "null" saved under the key, the restored session claims to be
      authenticated while having no user. */
  lemma LoadUserAsWrittenBreaksInvariant()
    ensures Consistent(Initial)
    ensures !Consistent(LoadUserAsWritten(Auth(Initial, NullText)).session)
  {
  }

  /** loadUser as intended: only a saved user authenticates the session; text
      that parses to null is treated like absent text. */
  function LoadUser(a: Auth): (r: Auth)
    ensures !r.session.loading && r.session.error == a.session.error
    ensures a.stored.Saved? ==> r == Auth(a.session.(user := Some(a.stored.user), isAuthenticated := true, loading := false), a.stored)
    ensures a.stored.Malformed? ==> r == Auth(a.session.(loading := false), Absent)
    ensures a.stored.Absent? || a.stored.NullText? ==> r == Auth(a.session.(loading := false), a.stored)
    ensures Consistent(a.session) ==> Consistent(r.session)
    ensures !a.stored.NullText? ==> r == LoadUserAsWritten(a)
  {
    match a.stored
    case Absent => Auth(a.session.(loading := false), a.stored)
    case Malformed => Auth(a.session.(loading := false), Absent)
    case NullText => Auth(a.session.(loading := false), a.stored)
    case Saved(u) => Auth(a.session.(user := Some(u), isAuthenticated := true, loading := false), a.stored)
  }

  // ---------------------------------------------------------------------------
  // register, login, logout, clearError
  // ---------------------------------------------------------------------------

  const RegistrationFailed := "Registration failed"
  const InvalidCredentials := "Invalid credentials"

  /** The outcome of the POST: the user the server returns, or a failure
      carrying the server's `message` if it sent one. */
  datatype Outcome = SignedIn(user: User) | Refused(serverMessage: Option<string>)

  /** What register and login share: a returned user is saved and signed in
      with the error cleared; a failure signs the session out of the
      authenticated state, keeps the user and the storage, and reports. */
  function SignIn(a: Auth, outcome: Outcome, fallback: string): (r: Auth)
    ensures r.session.loading == a.session.loading
    ensures outcome.SignedIn? ==> && r.session.user == Some(outcome.user) && r.session.isAuthenticated
                                  && r.session.error.None? && r.stored == Saved(outcome.user)
    ensures outcome.Refused? ==> && !r.session.isAuthenticated && r.session.user == a.session.user
                                 && r.session.error == Some(MessageOr(outcome.serverMessage, fallback))
                                 && r.stored == a.stored
    ensures Consistent(r.session)
  {
    match outcome
    case SignedIn(u) => Auth(a.session.(user := Some(u), isAuthenticated := true, error := None), Saved(u))
    case Refused(m) => Auth(a.session.(error := Some(MessageOr(m, fallback)), isAuthenticated := false), a.stored)
  }

  function Register(a: Auth, outcome: Outcome): (r: Auth)
    ensures outcome.Refused? ==> r.session.error == Some(MessageOr(outcome.serverMessage, RegistrationFailed))
    ensures outcome.SignedIn? ==> r.session.isAuthenticated && r.session.user == Some(outcome.user)
    ensures Consistent(r.session)
  {
    SignIn(a, outcome, RegistrationFailed)
  }

  function Login(a: Auth, outcome: Outcome): (r: Auth)
    ensures outcome.Refused? ==> r.session.error == Some(MessageOr(outcome.serverMessage, InvalidCredentials))
    ensures outcome.SignedIn? ==> r.session.isAuthenticated && r.session.user == Some(outcome.user)
    ensures Consistent(r.session)
  {
    SignIn(a, outcome, InvalidCredentials)
  }

  /** logout: storage cleared, no user, not authenticated; error and loading kept. */
  function Logout(a: Auth): (r: Auth)
    ensures r.stored == Absent && r.session.user.None? && !r.session.isAuthenticated
    ensures r.session.error == a.session.error && r.session.loading == a.session.loading
  {
    Auth(a.session.(user := None, isAuthenticated := false), Absent)
  }

  /** clearError: the error goes, nothing else changes. */
  function ClearError(a: Auth): (r: Auth)
    ensures r.session.error.None?
    ensures r.session.user == a.session.user && r.session.isAuthenticated == a.session.isAuthenticated
    ensures r.session.loading == a.session.loading && r.stored == a.stored
  {
    Auth(a.session.(error := None), a.stored)
  }

  // ---------------------------------------------------------------------------
  // Runs of the provider
  // ---------------------------------------------------------------------------

  datatype Event = Load | RegisterWith(o: Outcome) | LoginWith(o: Outcome) | SignOut | DismissError

  function Step(a: Auth, e: Event): Auth {
    match e
    case Load => LoadUser(a)
    case RegisterWith(o) => Register(a, o)
    case LoginWith(o) => Login(a, o)
    case SignOut => Logout(a)
    case DismissError => ClearError(a)
  }

  function Run(a: Auth, events: seq<Event>): Auth
    decreases |events|
  {
    if |events| == 0 then a else Run(Step(a, events[0]), events[1..])
  }

  /** Every transition keeps the invariant. */
  lemma StepKeepsConsistent(a: Auth, e: Event)
    requires Consistent(a.session)
    ensures Consistent(Step(a, e).session)
  {
  }

  /** From the initial session, whatever is in storage and whatever happens,
      an authenticated session always has a user. */
  lemma {:induction false} RunKeepsConsistent(a: Auth, events: seq<Event>)
    requires Consistent(a.session)
    ensures Consistent(Run(a, events).session)
    decreases |events|
  {
    if |events| > 0 {
      StepKeepsConsistent(a, events[0]);
      RunKeepsConsistent(Step(a, events[0]), events[1..]);
    }
  }

  /** After logging out, restoring from storage finds nothing. */
  lemma LogoutThenLoadStaysSignedOut(a: Auth)
    ensures var r := LoadUser(Logout(a)).session;
            r.user.None? && !r.isAuthenticated
  {
  }

  /** A signed-in user is restored by the next load. */
  lemma LoginThenLoadRestores(a: Auth, u: User)
    ensures LoadUser(Login(a, SignedIn(u))).session.user == Some(u)
  {
  }
}

=== FILE: common.dfy ===
/** Vocabulary shared by the backend and the frontend models: optional values,
    the JavaScript string operations the source relies on (trim, \s, lowercase,
    includes, split), order-preserving filters and the integer model of
    Math.round on percentages. */
module Common {

  datatype Option<T> = None | Some(value: T)

  /** The outcome of an operation that can fail with an error of type E. */
  datatype Result<T, E> = Ok(value: T) | Err(error: E)

  /** `err.response?.data?.message || fallback`: the server's message when it
      sent a non-empty one, otherwise the caller's fallback text. */
  function MessageOr(serverMessage: Option<string>, fallback: string): (r: string)
    ensures serverMessage.Some? && serverMessage.value != "" ==> r == serverMessage.value
    ensures serverMessage.None? || serverMessage.value == "" ==> r == fallback
  {
    if serverMessage.Some? && serverMessage.value != "" then serverMessage.value else fallback
  }

  // ---------------------------------------------------------------------------
  // Whitespace, as matched by the JavaScript regular-expression class \s and
  // removed by String.prototype.trim: the WhiteSpace and LineTerminator code
  // points of ECMAScript.
  // ---------------------------------------------------------------------------

  predicate IsWhitespace(c: char) {
    || c == '\t' || c == '\n' || c == '\U{000B}' || c == '\U{000C}' || c == '\r'
    || c == ' ' || c == '\U{00A0}' || c == '\U{1680}'
    || ('\U{2000}' <= c <= '\U{200A}')
    || c == '\U{2028}' || c == '\U{2029}' || c == '\U{202F}' || c == '\U{205F}'
    || c == '\U{3000}' || c == '\U{FEFF}'
  }

  predicate AllWhitespace(s: string) {
    forall i :: 0 <= i < |s| ==> IsWhitespace(s[i])
  }

  /** What the class \S+ requires of every character it matches. */
  predicate NoWhitespace(s: string) {
    forall i :: 0 <= i < |s| ==> !IsWhitespace(s[i])
  }

  /** Neither the first nor the last character is whitespace. */
  predicate IsTrimmed(s: string) {
    |s| == 0 || (!IsWhitespace(s[0]) && !IsWhitespace(s[|s| - 1]))
  }

  /** The first position at or after `i` that does not hold whitespace, or
      |s| when there is none. */
  function SkipStart(s: string, i: nat): (a: nat)
    requires i <= |s|
    ensures i <= a <= |s|
    ensures forall k :: i <= k < a ==> IsWhitespace(s[k])
    ensures a < |s| ==> !IsWhitespace(s[a])
    decreases |s| - i
  {
    if i < |s| && IsWhitespace(s[i]) then SkipStart(s, i + 1) else i
  }

  /** One past the last position before `j` that does not hold whitespace,
      or `a` when there is none from `a` on. */
  function SkipEnd(s: string, a: nat, j: nat): (b: nat)
    requires a <= j <= |s|
    ensures a <= b <= j
    ensures forall k :: b <= k < j ==> IsWhitespace(s[k])
    ensures b > a ==> !IsWhitespace(s[b - 1])
    decreases j
  {
    if j > a && IsWhitespace(s[j - 1]) then SkipEnd(s, a, j - 1) else j
  }

  /** `r` is `s` with whitespace, and only whitespace, cut from both ends:
      r == s[a..a + |r|] for some offset a. */
  ghost predicate IsTrimmedSlice(r: string, s: string) {
    exists a :: 0 <= a <= |s| - |r| && IsSliceAt(r, s, a)
  }

  ghost predicate IsSliceAt(r: string, s: string, a: int)
    requires 0 <= a <= |s| - |r|
  {
    r == s[a..a + |r|] && AllWhitespace(s[..a]) && AllWhitespace(s[a + |r|..])
  }

  /** String.prototype.trim: the slice of `s` that neither starts nor ends with
      whitespace, obtained by cutting only whitespace from either side. */
  function Trim(s: string): (r: string)
    ensures IsTrimmedSlice(r, s)
    ensures IsTrimmed(r)
    ensures r == [] <==> AllWhitespace(s)
  {
    var a := SkipStart(s, 0);
    var b := SkipEnd(s, a, |s|);
    assert IsSliceAt(s[a..b], s, a);
    assert a < b ==> s[a..b][0] == s[a] && !AllWhitespace(s);
    s[a..b]
  }

  /** Trimming only removes characters. */
  lemma TrimKeepsCharacters(s: string)
    ensures forall c :: c in Trim(s) ==> c in s
  {
    var r := Trim(s);
    var a :| 0 <= a <= |s| - |r| && IsSliceAt(r, s, a);
    assert r == s[a..a + |r|];
    SliceMembers(s, a, a + |r|);
  }

  lemma SliceMembers<T>(s: seq<T>, i: int, j: int)
    requires 0 <= i <= j <= |s|
    ensures forall c :: c in s[i..j] ==> c in s
  {
  }

  /** Trimming a string that is already trimmed changes nothing; in
      particular trimming is idempotent. */
  lemma TrimmedIsFixed(s: string)
    requires IsTrimmed(s)
    ensures Trim(s) == s
  {
    if |s| > 0 {
      assert SkipStart(s, 0) == 0;
      assert SkipEnd(s, 0, |s|) == |s|;
    }
    assert s[0..|s|] == s;
  }

  lemma TrimIdempotent(s: string)
    ensures Trim(Trim(s)) == Trim(s)
  {
    TrimmedIsFixed(Trim(s));
  }

  // ---------------------------------------------------------------------------
  // Lowercasing (String.prototype.toLowerCase, restricted to ASCII) and
  // substring search (String.prototype.includes).
  // ---------------------------------------------------------------------------

  function LowerChar(c: char): char {
    if 'A' <= c <= 'Z' then (c as int + 32) as char else c
  }

  function ToLower(s: string): (r: string)
    ensures |r| == |s|
    ensures forall i :: 0 <= i < |s| ==> r[i] == LowerChar(s[i])
  {
    if |s| == 0 then [] else [LowerChar(s[0])] + ToLower(s[1..])
  }

  ghost predicate OccursAt(hay: string, needle: string, i: int) {
    0 <= i && i + |needle| <= |hay| && hay[i..i + |needle|] == needle
  }

  lemma OccursShift(hay: string, needle: string)
    requires |hay| > 0
    ensures (exists i :: OccursAt(hay, needle, i))
            <==> OccursAt(hay, needle, 0) || exists j :: OccursAt(hay[1..], needle, j)
  {
    forall i | OccursAt(hay, needle, i) && i > 0
      ensures OccursAt(hay[1..], needle, i - 1)
    {
      assert hay[1..][i - 1..i - 1 + |needle|] == hay[i..i + |needle|];
    }
    forall j | OccursAt(hay[1..], needle, j)
      ensures OccursAt(hay, needle, j + 1)
    {
      assert hay[1..][j..j + |needle|] == hay[j + 1..j + 1 + |needle|];
    }
  }

  /** `hay.includes(needle)`: the needle occurs at some position of the hay. */
  function Contains(hay: string, needle: string): (r: bool)
    ensures r <==> exists i :: OccursAt(hay, needle, i)
    decreases |hay|
  {
    if |hay| < |needle| then
      false
    else if hay[..|needle|] == needle then
      assert OccursAt(hay, needle, 0);
      true
    else
      OccursShift(hay, needle);
      Contains(hay[1..], needle)
  }

  lemma EmptyNeedleOccurs(hay: string)
    ensures Contains(hay, "")
  {
    assert OccursAt(hay, "", 0);
  }

  // ---------------------------------------------------------------------------
  // String.prototype.split with a one-character separator, and its inverse.
  // ---------------------------------------------------------------------------

  function CountChar(s: string, c: char): (n: nat)
    ensures n <= |s|
    ensures n == 0 <==> c !in s
  {
    if |s| == 0 then 0 else (if s[0] == c then 1 else 0) + CountChar(s[1..], c)
  }

  /** Join(pieces, sep) = pieces.join(sep). */
  function Join(pieces: seq<string>, sep: char): string
    requires |pieces| >= 1
  {
    if |pieces| == 1 then pieces[0] else pieces[0] + [sep] + Join(pieces[1..], sep)
  }

  /** s.split(sep): the pieces between separators; there is always one more
      piece than separators, and no piece contains the separator. */
  function Split(s: string, sep: char): (r: seq<string>)
    ensures |r| == CountChar(s, sep) + 1
    ensures forall i :: 0 <= i < |r| ==> sep !in r[i]
  {
    if |s| == 0 then [""]
    else
      var rest := Split(s[1..], sep);
      if s[0] == sep then [""] + rest
      else [[s[0]] + rest[0]] + rest[1..]
  }

  /** Joining the pieces of a split gives back the original string. */
  lemma {:induction false} JoinSplit(s: string, sep: char)
    ensures Join(Split(s, sep), sep) == s
  {
    if |s| > 0 {
      var rest := Split(s[1..], sep);
      JoinSplit(s[1..], sep);
      assert s == [s[0]] + s[1..];
      if s[0] == sep {
        assert ([""] + rest)[1..] == rest;
      } else {
        JoinPrepend(s[0], rest, sep);
      }
    }
  }

  /** Putting a character in front of the first piece puts it in front of the join. */
  lemma JoinPrepend(c: char, pieces: seq<string>, sep: char)
    requires |pieces| >= 1
    ensures Join([[c] + pieces[0]] + pieces[1..], sep) == [c] + Join(pieces, sep)
  {
    var q := [[c] + pieces[0]] + pieces[1..];
    assert q[1..] == pieces[1..];
  }

  lemma {:induction false} SplitJoin(pieces: seq<string>, sep: char)
    requires |pieces| >= 1
    requires forall i :: 0 <= i < |pieces| ==> sep !in pieces[i]
    ensures Split(Join(pieces, sep), sep) == pieces
    decreases |pieces|, |pieces[0]|
  {
    var p := pieces[0];
    if |p| > 0 {
      var tail := [p[1..]] + pieces[1..];
      assert Join(tail, sep) == Join(pieces, sep)[1..] by {
        if |pieces| > 1 {
          assert tail[1..] == pieces[1..];
        }
      }
      SplitJoin(tail, sep);
      assert p == [p[0]] + p[1..];
      assert Join(pieces, sep)[0] == p[0];
    } else if |pieces| > 1 {
      SplitJoin(pieces[1..], sep);
      assert Join(pieces, sep) == [sep] + Join(pieces[1..], sep);
    }
  }

  // ---------------------------------------------------------------------------
  // Order-preserving filters (Array.prototype.filter) and subsequences.
  // ---------------------------------------------------------------------------

  /** `r` can be obtained from `s` by deleting elements, keeping the order. */
  predicate IsSubsequence<T(==)>(r: seq<T>, s: seq<T>)
    decreases |s|
  {
    if |r| == 0 then true
    else if |s| == 0 then false
    else if r[0] == s[0] then IsSubsequence(r[1..], s[1..])
    else IsSubsequence(r, s[1..])
  }

  lemma {:induction false} SubsequenceReflexive<T>(s: seq<T>)
    ensures IsSubsequence(s, s)
  {
    if |s| > 0 {
      SubsequenceReflexive(s[1..]);
    }
  }

  /** Every element of a subsequence is an element of the whole. */
  lemma {:induction false} SubsequenceMembers<T>(r: seq<T>, s: seq<T>)
    requires IsSubsequence(r, s)
    ensures forall x :: x in r ==> x in s
    decreases |s|
  {
    if |r| > 0 && |s| > 0 {
      assert r == [r[0]] + r[1..];
      assert s == [s[0]] + s[1..];
      if r[0] == s[0] {
        SubsequenceMembers(r[1..], s[1..]);
      } else {
        SubsequenceMembers(r, s[1..]);
      }
    }
  }

  /** s.filter(p): the elements satisfying `p`, in their original order
      (FilterCounts and FilterIsSubsequence state the multiplicities and the
      order). */
  function Filter<T(==)>(s: seq<T>, p: T -> bool): (r: seq<T>)
    ensures |r| <= |s|
    ensures forall x :: x in r ==> x in s && p(x)
    ensures forall x :: x in s && p(x) ==> x in r
  {
    if |s| == 0 then []
    else
      assert s == [s[0]] + s[1..];
      if p(s[0]) then [s[0]] + Filter(s[1..], p) else Filter(s[1..], p)
  }

  /** Filter keeps every satisfying element as many times as it occurs, and
      nothing else. */
  lemma {:induction false} FilterCounts<T>(s: seq<T>, p: T -> bool)
    ensures forall x :: x in s ==> multiset(Filter(s, p))[x] == if p(x) then multiset(s)[x] else 0
  {
    if |s| > 0 {
      FilterCounts(s[1..], p);
      assert s == [s[0]] + s[1..];
      if p(s[0]) {
        assert Filter(s, p) == [s[0]] + Filter(s[1..], p);
      }
    }
  }

  lemma {:induction false} FilterIsSubsequence<T>(s: seq<T>, p: T -> bool)
    ensures IsSubsequence(Filter(s, p), s)
  {
    if |s| > 0 {
      FilterIsSubsequence(s[1..], p);
      var rest := Filter(s[1..], p);
      if p(s[0]) {
        assert ([s[0]] + rest)[1..] == rest;
      }
    }
  }

  /** Filtering twice also keeps the original order. */
  lemma {:induction false} FilterTwiceIsSubsequence<T>(s: seq<T>, p: T -> bool, q: T -> bool)
    ensures IsSubsequence(Filter(Filter(s, p), q), s)
  {
    if |s| > 0 {
      FilterTwiceIsSubsequence(s[1..], p, q);
      assert s == [s[0]] + s[1..];
      FilterCons(s[0], s[1..], p);
      var rest := Filter(Filter(s[1..], p), q);
      if p(s[0]) {
        FilterCons(s[0], Filter(s[1..], p), q);
        if q(s[0]) {
          assert ([s[0]] + rest)[1..] == rest;
        }
      }
    }
  }

  lemma {:induction false} FilterNone<T>(s: seq<T>, p: T -> bool)
    requires forall x :: x in s ==> !p(x)
    ensures Filter(s, p) == []
  {
    if |s| > 0 {
      assert s[0] in s;
      assert forall x :: x in s[1..] ==> x in s;
      FilterNone(s[1..], p);
    }
  }

  function Keep<T>(x: T, p: T -> bool): seq<T> {
    if p(x) then [x] else []
  }

  lemma FilterCons<T>(x: T, s: seq<T>, p: T -> bool)
    ensures Filter([x] + s, p) == Keep(x, p) + Filter(s, p)
  {
    assert ([x] + s)[0] == x;
    assert ([x] + s)[1..] == s;
  }

  lemma {:induction false} FilterAppend<T>(a: seq<T>, b: seq<T>, p: T -> bool)
    ensures Filter(a + b, p) == Filter(a, p) + Filter(b, p)
  {
    if |a| == 0 {
      assert a + b == b;
    } else {
      var x := a[0];
      calc {
        Filter(a + b, p);
        { assert a + b == [x] + (a[1..] + b); }
        Filter([x] + (a[1..] + b), p);
        { FilterCons(x, a[1..] + b, p); }
        Keep(x, p) + Filter(a[1..] + b, p);
        { FilterAppend(a[1..], b, p); }
        Keep(x, p) + (Filter(a[1..], p) + Filter(b, p));
        (Keep(x, p) + Filter(a[1..], p)) + Filter(b, p);
        { FilterCons(x, a[1..], p); assert a == [x] + a[1..]; }
        Filter(a, p) + Filter(b, p);
      }
    }
  }

  lemma {:induction false} FilterKeepsAllWhenAllPass<T>(s: seq<T>, p: T -> bool)
    requires forall x :: x in s ==> p(x)
    ensures Filter(s, p) == s
  {
    if |s| > 0 {
      FilterKeepsAllWhenAllPass(s[1..], p);
      assert s == [s[0]] + s[1..];
    }
  }

  lemma {:induction false} FilterCommutes<T>(s: seq<T>, p: T -> bool, q: T -> bool)
    ensures Filter(Filter(s, p), q) == Filter(Filter(s, q), p)
  {
    if |s| > 0 {
      FilterCommutes(s[1..], p, q);
      assert s == [s[0]] + s[1..];
      var x := s[0];
      if p(x) {
        assert Filter(s, p) == [x] + Filter(s[1..], p);
        assert ([x] + Filter(s[1..], p))[1..] == Filter(s[1..], p);
      }
      if q(x) {
        assert Filter(s, q) == [x] + Filter(s[1..], q);
        assert ([x] + Filter(s[1..], q))[1..] == Filter(s[1..], q);
      }
    }
  }

  function Both<T>(p: T -> bool, q: T -> bool): T -> bool {
    x => p(x) && q(x)
  }

  /** Filtering by `p` and then by `q` is filtering once by both. */
  lemma {:induction false} FilterTwice<T>(s: seq<T>, p: T -> bool, q: T -> bool)
    ensures Filter(Filter(s, p), q) == Filter(s, Both(p, q))
  {
    if |s| > 0 {
      FilterTwice(s[1..], p, q);
      assert s == [s[0]] + s[1..];
      FilterCons(s[0], s[1..], p);
      FilterCons(s[0], s[1..], Both(p, q));
      if p(s[0]) {
        FilterCons(s[0], Filter(s[1..], p), q);
      }
    }
  }

  /** Filters that agree on every element of `s` give the same result. */
  lemma {:induction false} FilterCongruent<T>(s: seq<T>, p: T -> bool, q: T -> bool)
    requires forall x :: x in s ==> (p(x) <==> q(x))
    ensures Filter(s, p) == Filter(s, q)
  {
    if |s| > 0 {
      FilterCongruent(s[1..], p, q);
    }
  }

  function CountWhere<T(==)>(s: seq<T>, p: T -> bool): (n: nat)
    ensures n <= |s|
  {
    |Filter(s, p)|
  }

  /** The positions of `s` whose element satisfies `p`. */
  function Positions<T>(s: seq<T>, p: T -> bool): set<nat> {
    set i: nat | i < |s| && p(s[i])
  }

  /** The count of satisfying elements is the number of positions holding one. */
  lemma {:induction false} CountIsPositions<T>(s: seq<T>, p: T -> bool)
    ensures CountWhere(s, p) == |Positions(s, p)|
    decreases |s|
  {
    if |s| > 0 {
      var init, x := s[..|s| - 1], s[|s| - 1];
      CountIsPositions(init, p);
      assert s == init + [x];
      FilterAppend(init, [x], p);
      FilterCons(x, [], p);
      assert [x] + [] == [x];
      PositionsOfLast(s, p);
    }
  }

  /** The last element adds its own position, if it satisfies `p`, to those of the rest. */
  lemma PositionsOfLast<T>(s: seq<T>, p: T -> bool)
    requires |s| > 0
    ensures |Positions(s, p)| == |Positions(s[..|s| - 1], p)| + |Keep(s[|s| - 1], p)|
  {
    var init, last := Positions(s[..|s| - 1], p), |s| - 1;
    assert last !in init;
    if p(s[last]) {
      assert Positions(s, p) == init + {last};
    } else {
      assert Positions(s, p) == init;
    }
  }

  /** Replacing one element changes the count by what the old and new
      elements contribute. */
  lemma CountAfterReplace<T>(s: seq<T>, i: nat, y: T, p: T -> bool)
    requires i < |s|
    ensures CountWhere(s[i := y], p) + |Keep(s[i], p)| == CountWhere(s, p) + |Keep(y, p)|
  {
    var a, b := s[..i], s[i + 1..];
    assert s == (a + [s[i]]) + b;
    assert s[i := y] == (a + [y]) + b;
    FilterAppend(a + [s[i]], b, p);
    FilterAppend(a, [s[i]], p);
    FilterAppend(a + [y], b, p);
    FilterAppend(a, [y], p);
    FilterCons(s[i], [], p);
    FilterCons(y, [], p);
    assert [s[i]] + [] == [s[i]] && [y] + [] == [y];
  }

  /** A subsequence all of whose elements satisfy `p` is no longer than the
      filter of the whole by `p`. */
  lemma {:induction false} SubsequenceWithinCount<T>(r: seq<T>, s: seq<T>, p: T -> bool)
    requires IsSubsequence(r, s)
    requires forall x :: x in r ==> p(x)
    ensures |r| <= CountWhere(s, p)
    decreases |s|
  {
    if |r| > 0 && |s| > 0 {
      if r[0] == s[0] {
        assert forall x :: x in r[1..] ==> x in r;
        SubsequenceWithinCount(r[1..], s[1..], p);
        assert p(s[0]);
      } else {
        SubsequenceWithinCount(r, s[1..], p);
      }
    }
  }

  /** The first `n` elements, or all of them when there are fewer (Array.prototype.slice(0, n)). */
  function Take<T>(s: seq<T>, n: nat): (r: seq<T>)
    ensures |r| == if |s| < n then |s| else n
    ensures r == s[..|r|]
  {
    if |s| <= n then s else s[..n]
  }
  /** A prefix holds no element more often than the whole sequence. */
  lemma TakeWithinMultiset<T>(s: seq<T>, n: nat)
    ensures multiset(Take(s, n)) <= multiset(s)
  {
    var k := |Take(s, n)|;
    assert s == s[..k] + s[k..];
  }

  /** A prefix of a subsequence of `s` is itself a subsequence of `s`. */
  lemma {:induction false} TakeOfSubsequence<T>(r: seq<T>, s: seq<T>, n: nat)
    requires IsSubsequence(r, s)
    ensures IsSubsequence(Take(r, n), s)
    decreases |s|
  {
    var p := Take(r, n);
    if |p| > 0 {
      if r[0] == s[0] {
        TakeOfSubsequence(r[1..], s[1..], n - 1);
        assert p[1..] == Take(r[1..], n - 1);
      } else {
        TakeOfSubsequence(r, s[1..], n);
      }
    }
  }


  // ---------------------------------------------------------------------------
  // Math.round(part / whole * 100), guarded against an empty whole.
  // ---------------------------------------------------------------------------

  /** The percentage `part/whole` rounded to the nearest integer, halves going
      up, and 0 when `whole` is 0. */
  function RoundPercent(part: nat, whole: nat): (r: nat)
    ensures whole == 0 ==> r == 0
    ensures whole > 0 ==> (2 * r - 1) * whole <= 200 * part < (2 * r + 1) * whole
    ensures part <= whole ==> r <= 100
    ensures 0 < whole == part ==> r == 100
    ensures part == 0 ==> r == 0
  {
    if whole == 0 then 0
    else
      var q := (200 * part + whole) / (2 * whole);
      HalfUpBounds(part, whole, q);
      q
  }

  lemma MulMonotonic(a: int, b: int, c: nat)
    requires a <= b
    ensures a * c <= b * c
  {
  }

  lemma HalfUpBounds(part: nat, whole: nat, q: nat)
    requires whole > 0 && q == (200 * part + whole) / (2 * whole)
    ensures (2 * q - 1) * whole <= 200 * part < (2 * q + 1) * whole
    ensures part <= whole ==> q <= 100
    ensures part == whole ==> q == 100
    ensures part == 0 ==> q == 0
  {
    var n := 200 * part + whole;
    var d := 2 * whole;
    var p := q * whole;
    assert d * q == 2 * p;
    assert d * q <= n < d * q + d;
    assert (2 * q - 1) * whole == 2 * p - whole;
    assert (2 * q + 1) * whole == 2 * p + whole;
    if q > 100 {
      MulMonotonic(101, q, whole);
      assert part > whole;
    }
    if part == whole && q < 100 {
      MulMonotonic(q, 99, whole);
      assert false;
    }
    if part == 0 && q > 0 {
      MulMonotonic(1, q, whole);
      assert false;
    }
  }

  /** A larger part never gives a smaller percentage. */
  lemma RoundPercentMonotonic(a: nat, b: nat, whole: nat)
    requires a <= b
    ensures RoundPercent(a, whole) <= RoundPercent(b, whole)
  {
    if whole > 0 {
      var ra := RoundPercent(a, whole);
      var rb := RoundPercent(b, whole);
      if ra > rb {
        MulMonotonic(2 * rb + 1, 2 * ra - 1, whole);
        assert false;
      }
    }
  }
}

=== FILE: dashboard.dfy ===
/** The three short lists of frontend/src/pages/Dashboard.tsx, recomputed
    whenever the cached task list changes: the newest tasks, the open tasks
    due within the coming week, and the open tasks already overdue. */
module Dashboard {

  import opened Common
  import opened Sorting
  import opened TaskModel

  /** How many tasks each list shows. */
  const Shown: nat := 3

  const WeekMs: int := 7 * DayMs

  datatype Lists = Lists(recent: seq<Task>, upcoming: seq<Task>, overdue: seq<Task>)

  /** Sorting on this key ascending is sorting on createdAt descending. */
  function NewestFirst(t: Task): int {
    -t.createdAt
  }

  /** Not completed, with a due date between now and a week from now, both ends included. */
  predicate IsUpcoming(t: Task, now: Timestamp) {
    t.dueDate.Some? && t.status != Completed && now <= t.dueDate.value <= now + WeekMs
  }

  /** Not completed, with a due date before now. */
  predicate IsOverdue(t: Task, now: Timestamp) {
    t.dueDate.Some? && t.status != Completed && t.dueDate.value < now
  }

  function Upcoming(now: Timestamp): Task -> bool {
    t => IsUpcoming(t, now)
  }

  function Overdue(now: Timestamp): Task -> bool {
    t => IsOverdue(t, now)
  }

  /** The newest tasks, newest first: no task left out is newer than one shown. */
  function RecentTasks(tasks: seq<Task>): (r: seq<Task>)
    ensures |r| == if |tasks| < Shown then |tasks| else Shown
    ensures forall t :: t in r ==> t in tasks
    ensures forall i, j :: 0 <= i < j < |r| ==> r[i].createdAt >= r[j].createdAt
    ensures forall x, y :: x in r && y in tasks && y !in r ==> y.createdAt <= x.createdAt
    ensures multiset(r) <= multiset(tasks)
  {
    var sorted := SortBy(tasks, NewestFirst);
    var r := Take(sorted, Shown);
    RecentFacts(tasks);
    TakeWithinMultiset(sorted, Shown);
    r
  }

  lemma RecentFacts(tasks: seq<Task>)
    ensures var sorted := SortBy(tasks, NewestFirst);
            var r := Take(sorted, Shown);
            && (forall t :: t in r ==> t in tasks)
            && (forall i, j :: 0 <= i < j < |r| ==> r[i].createdAt >= r[j].createdAt)
            && (forall x, y :: x in r && y in tasks && y !in r ==> y.createdAt <= x.createdAt)
  {
    var sorted := SortBy(tasks, NewestFirst);
    var r := Take(sorted, Shown);
    forall t | t in r ensures t in tasks {
      assert t in multiset(sorted);
    }
    forall i, j | 0 <= i < j < |r| ensures r[i].createdAt >= r[j].createdAt {
      assert NewestFirst(sorted[i]) <= NewestFirst(sorted[j]);
    }
    PrefixHasSmallestKeys(tasks, NewestFirst, Shown);
    forall x, y | x in r && y in tasks && y !in r ensures y.createdAt <= x.createdAt {
      assert NewestFirst(x) <= NewestFirst(y);
    }
  }

  /** The first three tasks that pass `p`, in list order; when fewer than
      three are shown, none that passes was left out. */
  function FirstThat(tasks: seq<Task>, p: Task -> bool): (r: seq<Task>)
    ensures |r| <= Shown
    ensures forall t :: t in r ==> t in tasks && p(t)
    ensures |r| < Shown ==> forall t :: t in tasks && p(t) ==> t in r
    ensures IsSubsequence(r, tasks)
    ensures |r| == if CountWhere(tasks, p) < Shown then CountWhere(tasks, p) else Shown
    ensures r == Filter(tasks, p)[..|r|]
  {
    var all := Filter(tasks, p);
    FilterIsSubsequence(tasks, p);
    TakeOfSubsequence(all, tasks, Shown);
    Take(all, Shown)
  }

  /** The effect body: with tasks present, all three lists are recomputed at
      time `now`; with none, the lists shown before stay as they were. */
  function Refresh(tasks: seq<Task>, now: Timestamp, shown: Lists): (r: Lists)
    ensures |tasks| == 0 ==> r == shown
    ensures |tasks| > 0 ==> && r.recent == RecentTasks(tasks)
                            && r.upcoming == FirstThat(tasks, Upcoming(now))
                            && r.overdue == FirstThat(tasks, Overdue(now))
  {
    if |tasks| > 0 then
      Lists(RecentTasks(tasks), FirstThat(tasks, Upcoming(now)), FirstThat(tasks, Overdue(now)))
    else
      shown
  }

  /** What the two due-date lists may contain: only open tasks with a due
      date, never the same task in both. */
  lemma DueListsAreDisjoint(tasks: seq<Task>, now: Timestamp, shown: Lists)
    requires |tasks| > 0
    ensures var r := Refresh(tasks, now, shown);
            && (forall t :: t in r.upcoming ==> t.dueDate.Some? && t.status != Completed)
            && (forall t :: t in r.overdue ==> t.dueDate.Some? && t.status != Completed)
            && (forall t :: t in r.upcoming ==> t !in r.overdue)
  {
    var r := Refresh(tasks, now, shown);
    forall t | t in r.upcoming ensures t !in r.overdue {
      assert IsUpcoming(t, now);
    }
  }
}

=== FILE: http.dfy ===
/** How an HTTP handler of the backend fails. Handlers either set a status and
    throw (`res.status(404); throw new Error('Task not found')`), or let an
    exception escape without setting one, in which case the application's error
    middleware chooses the reply; the `protect` middleware refuses requests
    without a valid credential before any handler runs. */
module Http {

  datatype ApiError =
    | Respond(status: nat, message: string)
    | Uncaught(message: string)
    | Unauthenticated
}

=== FILE: notification_context.dfy ===
/** The client-side notification list of
    frontend/src/context/NotificationContext.tsx: loading it, marking one or
    all entries read once the server confirms, the unread count, and the
    entries pushed over the socket. */
module NotificationContext {

  import opened Common
  import opened TaskModel
  import NotificationController

  /** A notification as the client holds it; ids are the strings the server
      sends, or the clock reading for pushed entries. */
  datatype Entry = Entry(
    id: string,
    kind: NotificationController.NotificationType,
    message: string,
    taskId: Option<string>,
    read: bool,
    createdAt: Timestamp)

  datatype State = State(notifications: seq<Entry>, loading: bool)

  predicate IsUnread(n: Entry) {
    !n.read
  }

  /** unreadCount: the number of entries not yet read. */
  function UnreadCount(ns: seq<Entry>): (n: nat)
    ensures n == |set i: nat | i < |ns| && !ns[i].read|
    ensures n <= |ns|
    ensures n == 0 <==> forall e :: e in ns ==> e.read
  {
    var r := Filter(ns, IsUnread);
    assert r != [] ==> r[0] in ns && !r[0].read;
    CountIsPositions(ns, IsUnread);
    assert Positions(ns, IsUnread) == set i: nat | i < |ns| && !ns[i].read;
    |r|
  }

  /** getNotifications: nothing happens when signed out; otherwise a
      successful response replaces the list and a failure keeps it. */
  function AfterFetch(s: State, isAuthenticated: bool, response: Option<seq<Entry>>): (r: State)
    ensures !isAuthenticated ==> r == s
    ensures isAuthenticated ==> !r.loading
    ensures isAuthenticated && response.Some? ==> r.notifications == response.value
    ensures response.None? ==> r.notifications == s.notifications
  {
    if !isAuthenticated then s
    else
      match response
      case Some(ns) => State(ns, false)
      case None => s.(loading := false)
  }

  /** prev.map(n => n._id === id ? { ...n, read: true } : n). */
  function MarkRead(ns: seq<Entry>, id: string): (r: seq<Entry>)
    ensures |r| == |ns|
    ensures forall i :: 0 <= i < |ns| && ns[i].id == id ==> r[i] == ns[i].(read := true)
    ensures forall i :: 0 <= i < |ns| && ns[i].id != id ==> r[i] == ns[i]
  {
    if |ns| == 0 then []
    else [if ns[0].id == id then ns[0].(read := true) else ns[0]] + MarkRead(ns[1..], id)
  }

  /** markAsRead: once the server confirms, the entries with the id are read
      and nothing else changes; a failed request changes nothing. */
  function MarkAsRead(s: State, id: string, succeeded: bool): (r: State)
    ensures !succeeded ==> r == s
    ensures succeeded ==> r.notifications == MarkRead(s.notifications, id) && r.loading == s.loading
  {
    if succeeded then s.(notifications := MarkRead(s.notifications, id)) else s
  }

  function MarkEveryRead(ns: seq<Entry>): (r: seq<Entry>)
    ensures |r| == |ns|
    ensures forall i :: 0 <= i < |ns| ==> r[i] == ns[i].(read := true)
  {
    if |ns| == 0 then [] else [ns[0].(read := true)] + MarkEveryRead(ns[1..])
  }

  /** markAllAsRead: once the server confirms, every entry is read, in the
      same order; a failed request changes nothing. */
  function MarkAllAsRead(s: State, succeeded: bool): (r: State)
    ensures !succeeded ==> r == s
    ensures succeeded ==> UnreadCount(r.notifications) == 0 && |r.notifications| == |s.notifications|
    ensures succeeded ==> forall i :: 0 <= i < |s.notifications| ==> r.notifications[i] == s.notifications[i].(read := true)
    ensures r.loading == s.loading
  {
    if succeeded then
      var ns := MarkEveryRead(s.notifications);
      assert forall e :: e in ns ==> e.read;
      s.(notifications := ns)
    else s
  }

  /** The socket's 'notification' event: an unread entry goes in front, with
      the clock reading as its id and creation time. */
  function Push(s: State, kind: NotificationController.NotificationType, message: string,
                taskId: Option<string>, clockId: string, now: Timestamp): (r: State)
    ensures |r.notifications| == |s.notifications| + 1
    ensures r.notifications[1..] == s.notifications
    ensures !r.notifications[0].read && r.notifications[0].message == message
    ensures && r.notifications[0].kind == kind && r.notifications[0].taskId == taskId
            && r.notifications[0].id == clockId && r.notifications[0].createdAt == now
    ensures r.loading == s.loading
    ensures UnreadCount(r.notifications) == UnreadCount(s.notifications) + 1
  {
    var n := Entry(clockId, kind, message, taskId, false, now);
    FilterCons(n, s.notifications, IsUnread);
    s.(notifications := [n] + s.notifications)
  }

  function UnreadWithId(id: string): Entry -> bool {
    (e: Entry) => !e.read && e.id == id
  }

  /** Marking an id read lowers the unread count by exactly the number of
      unread entries carrying that id. */
  lemma {:induction false} MarkReadLowersCount(ns: seq<Entry>, id: string)
    ensures UnreadCount(MarkRead(ns, id)) + CountWhere(ns, UnreadWithId(id)) == UnreadCount(ns)
  {
    if |ns| > 0 {
      var tail := ns[1..];
      var head := if ns[0].id == id then ns[0].(read := true) else ns[0];
      var m := MarkRead(tail, id);
      MarkReadLowersCount(tail, id);
      assert ns == [ns[0]] + tail;
      assert MarkRead(ns, id) == [head] + m;
      FilterCons(head, m, IsUnread);
      FilterCons(ns[0], tail, IsUnread);
      FilterCons(ns[0], tail, UnreadWithId(id));
      MarkReadHead(ns[0], id);
    }
  }

  /** The single-entry case: marking an entry read takes it out of the unread
      count exactly when it was unread and carries the id. */
  lemma MarkReadHead(e: Entry, id: string)
    ensures var head := if e.id == id then e.(read := true) else e;
            |Keep(head, IsUnread)| + |Keep(e, UnreadWithId(id))| == |Keep(e, IsUnread)|
  {
  }

  /** Marking the same id read twice is the same as once. */
  lemma {:induction false} MarkReadIdempotent(ns: seq<Entry>, id: string)
    ensures MarkRead(MarkRead(ns, id), id) == MarkRead(ns, id)
  {
    if |ns| > 0 {
      MarkReadIdempotent(ns[1..], id);
      assert MarkRead(ns, id)[1..] == MarkRead(ns[1..], id);
    }
  }

  /** A pushed entry can be marked read again, bringing the count back. */
  lemma PushThenMarkRead(s: State, kind: NotificationController.NotificationType, message: string,
                         taskId: Option<string>, clockId: string, now: Timestamp)
    requires forall e :: e in s.notifications ==> e.id != clockId
    ensures var pushed := Push(s, kind, message, taskId, clockId, now);
            UnreadCount(MarkAsRead(pushed, clockId, true).notifications) == UnreadCount(s.notifications)
  {
    var n := Entry(clockId, kind, message, taskId, false, now);
    var pushed := Push(s, kind, message, taskId, clockId, now);
    assert pushed.notifications == [n] + s.notifications;
    FilterNone(s.notifications, UnreadWithId(clockId));
    FilterCons(n, s.notifications, UnreadWithId(clockId));
    assert CountWhere(pushed.notifications, UnreadWithId(clockId)) == 1;
    MarkReadLowersCount(pushed.notifications, clockId);
  }
}

=== FILE: notification_controller.dfy ===
/** The inbox handlers of backend/controllers/notificationController.js over
    the notification collection: the newest-first page of 50, marking one
    notification read with its 404/403 checks, and marking all read. */
module NotificationController {

  import opened Common
  import opened Http
  import opened Sorting
  import opened TaskModel

  type NotificationId = nat

  datatype NotificationType = TaskShared | TaskUpdated | TaskCompleted

  datatype Notification = Notification(
    id: NotificationId,
    recipient: UserId,
    sender: UserId,
    kind: NotificationType,
    message: string,
    taskId: Option<TaskId>,
    read: bool,
    createdAt: Timestamp)

  /** The notification collection, in natural (insertion) order. */
  type Collection = seq<Notification>

  predicate UniqueIds(c: Collection) {
    forall i, j :: 0 <= i < j < |c| ==> c[i].id != c[j].id
  }

  datatype Reply<T> = Reply(notifications: Collection, result: Result<T, ApiError>)

  const PageSize: nat := 50
  const NotificationNotFound: ApiError := Respond(404, "Notification not found")
  const NotAuthorized: ApiError := Respond(403, "Not authorized to access this notification")
  const AllMarkedRead: string := "All notifications marked as read"

  /** Sorting on this key ascending is sorting on createdAt descending. */
  function NewestFirst(n: Notification): int {
    -n.createdAt
  }

  function Mine(c: Collection, requester: UserId): seq<Notification> {
    Filter(c, (n: Notification) => n.recipient == requester)
  }

  // ---------------------------------------------------------------------------
  // GET /api/notifications
  // ---------------------------------------------------------------------------

  /** getNotifications: the requester's notifications, newest first, at most
      50 of them, and no older one left out in favour of a newer one. */
  function GetNotifications(c: Collection, requester: UserId): (r: seq<Notification>)
    ensures |r| == if |Mine(c, requester)| < PageSize then |Mine(c, requester)| else PageSize
    ensures forall n :: n in r ==> n in c && n.recipient == requester
    ensures forall i, j :: 0 <= i < j < |r| ==> r[i].createdAt >= r[j].createdAt
    ensures forall x, y :: x in r && y in c && y.recipient == requester && y !in r
                           ==> y.createdAt <= x.createdAt
    ensures multiset(r) <= multiset(Mine(c, requester))
    ensures |Mine(c, requester)| <= PageSize ==> multiset(r) == multiset(Mine(c, requester))
  {
    var r := Take(SortBy(Mine(c, requester), NewestFirst), PageSize);
    TakeWithinMultiset(SortBy(Mine(c, requester), NewestFirst), PageSize);
    PageMembers(c, requester);
    PageOrder(c, requester);
    PageIsNewest(c, requester);
    r
  }

  lemma PageMembers(c: Collection, requester: UserId)
    ensures forall n :: n in Take(SortBy(Mine(c, requester), NewestFirst), PageSize)
                        ==> n in c && n.recipient == requester
  {
    var mine := Mine(c, requester);
    var sorted := SortBy(mine, NewestFirst);
    forall n | n in Take(sorted, PageSize) ensures n in c && n.recipient == requester {
      assert n in sorted;
      assert n in multiset(sorted);
      assert n in mine;
    }
  }

  lemma PageOrder(c: Collection, requester: UserId)
    ensures var r := Take(SortBy(Mine(c, requester), NewestFirst), PageSize);
            forall i, j :: 0 <= i < j < |r| ==> r[i].createdAt >= r[j].createdAt
  {
    var sorted := SortBy(Mine(c, requester), NewestFirst);
    var r := Take(sorted, PageSize);
    forall i, j | 0 <= i < j < |r| ensures r[i].createdAt >= r[j].createdAt {
      assert r[i] == sorted[i] && r[j] == sorted[j];
      assert NewestFirst(sorted[i]) <= NewestFirst(sorted[j]);
    }
  }

  lemma PageIsNewest(c: Collection, requester: UserId)
    ensures var r := Take(SortBy(Mine(c, requester), NewestFirst), PageSize);
            forall x, y :: x in r && y in c && y.recipient == requester && y !in r
                           ==> y.createdAt <= x.createdAt
  {
    var mine := Mine(c, requester);
    var r := Take(SortBy(mine, NewestFirst), PageSize);
    PrefixHasSmallestKeys(mine, NewestFirst, PageSize);
    forall x, y | x in r && y in c && y.recipient == requester && y !in r
      ensures y.createdAt <= x.createdAt
    {
      assert y in mine;
      assert NewestFirst(x) <= NewestFirst(y);
    }
  }

  // ---------------------------------------------------------------------------
  // PUT /api/notifications/:id/read
  // ---------------------------------------------------------------------------

  function FindById(c: Collection, id: NotificationId): (r: Option<nat>)
    ensures r.Some? ==> r.value < |c| && c[r.value].id == id
    ensures r.None? ==> forall i :: 0 <= i < |c| ==> c[i].id != id
  {
    if |c| == 0 then None
    else if c[0].id == id then Some(0)
    else
      match FindById(c[1..], id)
      case None => None
      case Some(i) => Some(i + 1)
  }

  /** markNotificationAsRead: 404 when no notification has the id, 403 when it
      belongs to someone else (checked in that order); otherwise that one
      notification, and nothing else, becomes read. */
  function MarkNotificationAsRead(c: Collection, id: NotificationId, requester: UserId): (r: Reply<Notification>)
    requires UniqueIds(c)
    ensures (forall i :: 0 <= i < |c| ==> c[i].id != id) ==> r == Reply(c, Err(NotificationNotFound))
    ensures forall i :: 0 <= i < |c| && c[i].id == id && c[i].recipient != requester
                        ==> r == Reply(c, Err(NotAuthorized))
    ensures r.result.Err? ==> r.notifications == c
    ensures r.result.Ok? ==> exists i :: && 0 <= i < |c| && c[i].id == id && c[i].recipient == requester
                                         && r.result.value == c[i].(read := true)
                                         && r.notifications == c[i := c[i].(read := true)]
    ensures forall i :: 0 <= i < |c| && c[i].id == id && c[i].recipient == requester
                        ==> r == Reply(c[i := c[i].(read := true)], Ok(c[i].(read := true)))
  {
    match FindById(c, id)
    case None => Reply(c, Err(NotificationNotFound))
    case Some(i) =>
      if c[i].recipient != requester then Reply(c, Err(NotAuthorized))
      else
        var n := c[i].(read := true);
        Reply(c[i := n], Ok(n))
  }

  /** Marking a notification read a second time changes nothing more. */
  lemma MarkReadIdempotent(c: Collection, id: NotificationId, requester: UserId)
    requires UniqueIds(c)
    requires MarkNotificationAsRead(c, id, requester).result.Ok?
    ensures UniqueIds(MarkNotificationAsRead(c, id, requester).notifications)
    ensures var once := MarkNotificationAsRead(c, id, requester);
            MarkNotificationAsRead(once.notifications, id, requester) == once
  {
    var once := MarkNotificationAsRead(c, id, requester);
    var i :| 0 <= i < |c| && c[i].id == id && c[i].recipient == requester
             && once.notifications == c[i := c[i].(read := true)];
    assert forall k :: 0 <= k < |c| ==> once.notifications[k].id == c[k].id;
    assert FindById(once.notifications, id) == Some(i) by {
      var f := FindById(once.notifications, id);
      assert f.Some?;
    }
    assert once.notifications[i := once.notifications[i].(read := true)] == once.notifications;
  }

  // ---------------------------------------------------------------------------
  // PUT /api/notifications/read-all
  // ---------------------------------------------------------------------------

  function MarkIfMine(n: Notification, requester: UserId): Notification {
    if n.recipient == requester && !n.read then n.(read := true) else n
  }

  /** markAllNotificationsAsRead: always succeeds; afterwards the requester
      has no unread notification and nobody else's has changed. */
  function MarkAllNotificationsAsRead(c: Collection, requester: UserId): (r: Reply<string>)
    ensures r.result == Ok(AllMarkedRead)
    ensures |r.notifications| == |c|
    ensures forall i :: 0 <= i < |c| && c[i].recipient != requester ==> r.notifications[i] == c[i]
    ensures forall i :: 0 <= i < |c| && c[i].recipient == requester
                        ==> r.notifications[i] == c[i].(read := true)
    ensures forall n :: n in r.notifications && n.recipient == requester ==> n.read
  {
    Reply(seq(|c|, i requires 0 <= i < |c| => MarkIfMine(c[i], requester)), Ok(AllMarkedRead))
  }

  lemma MarkAllIdempotent(c: Collection, requester: UserId)
    ensures var once := MarkAllNotificationsAsRead(c, requester).notifications;
            MarkAllNotificationsAsRead(once, requester).notifications == once
  {
  }
}

=== FILE: register_form.dfy ===
/** The checks of the registration form in frontend/src/pages/Register.tsx:
    one message per field, the email shape /^\S+@\S+\.\S+$/, and the rule that
    the account is requested only when every message is empty. */
module RegisterForm {

  import opened Common

  datatype Form = Form(name: string, email: string, password: string, confirmPassword: string)

  /** One message per field; "" means the field is fine. */
  datatype Errors = Errors(name: string, email: string, password: string, confirmPassword: string)

  const NameRequired := "Name is required"
  const EmailRequired := "Email is required"
  const EmailInvalid := "Email is invalid"
  const PasswordRequired := "Password is required"
  const PasswordTooShort := "Password must be at least 6 characters"
  const PasswordsDiffer := "Passwords do not match"

  const MinPasswordLength: nat := 6

  /** The strings /^\S+@\S+\.\S+$/ accepts: no whitespace anywhere, an '@'
      after at least one character, and a later '.' with at least one
      character between them and at least one after it. */
  ghost predicate EmailShaped(s: string) {
    && NoWhitespace(s)
    && exists i, j :: 1 <= i && i + 2 <= j && j + 2 <= |s| && s[i] == '@' && s[j] == '.'
  }

  /** The regular-expression test, as a left-to-right scan: the first '@'
      after the first character is the best choice, since any later '.'
      that suits a later '@' suits it too. */
  method MatchesEmailShape(s: string) returns (r: bool)
    ensures r <==> EmailShaped(s)
  {
    var k := 0;
    while k < |s|
      invariant 0 <= k <= |s|
      invariant forall m :: 0 <= m < k ==> !IsWhitespace(s[m])
    {
      if IsWhitespace(s[k]) {
        return false;
      }
      k := k + 1;
    }
    if |s| < 5 {
      return false;
    }
    var i := 1;
    while i < |s| && s[i] != '@'
      invariant 1 <= i <= |s|
      invariant forall m :: 1 <= m < i ==> s[m] != '@'
    {
      i := i + 1;
    }
    if i == |s| {
      return false;
    }
    var j := i + 2;
    while j + 2 <= |s| && s[j] != '.'
      invariant i + 2 <= j
      invariant forall m :: i + 2 <= m < j && m + 2 <= |s| ==> s[m] != '.'
    {
      j := j + 1;
    }
    r := j + 2 <= |s|;
    if !r {
      forall a, b | 1 <= a && a + 2 <= b && b + 2 <= |s| && s[a] == '@'
        ensures s[b] != '.'
      {
        assert a >= i;
      }
    }
  }

  /** The message of a field that must not be blank: `!value.trim()`. */
  function BlankMessage(value: string, message: string): (r: string)
    ensures r == (if AllWhitespace(value) then message else "")
  {
    if Trim(value) == "" then message else ""
  }

  function PasswordMessage(password: string): (r: string)
    ensures r == "" <==> |password| >= MinPasswordLength
    ensures password == "" ==> r == PasswordRequired
    ensures 0 < |password| < MinPasswordLength ==> r == PasswordTooShort
  {
    if password == "" then PasswordRequired
    else if |password| < MinPasswordLength then PasswordTooShort
    else ""
  }

  method EmailMessage(email: string) returns (r: string)
    ensures r == (if AllWhitespace(email) then EmailRequired else if !EmailShaped(email) then EmailInvalid else "")
  {
    r := BlankMessage(email, EmailRequired);
    if r == "" {
      var shaped := MatchesEmailShape(email);
      if !shaped {
        r := EmailInvalid;
      }
    }
  }

  /** validateForm: the message of each field, and whether all are empty. */
  method ValidateForm(f: Form) returns (errors: Errors, isValid: bool)
    ensures errors.name == (if AllWhitespace(f.name) then NameRequired else "")
    ensures errors.email == (if AllWhitespace(f.email) then EmailRequired
                             else if !EmailShaped(f.email) then EmailInvalid
                             else "")
    ensures errors.password == PasswordMessage(f.password)
    ensures errors.confirmPassword == (if f.password != f.confirmPassword then PasswordsDiffer else "")
    ensures isValid <==> errors == Errors("", "", "", "")
  {
    var emailError := EmailMessage(f.email);
    var confirmError := if f.password != f.confirmPassword then PasswordsDiffer else "";
    errors := Errors(BlankMessage(f.name, NameRequired), emailError, PasswordMessage(f.password), confirmError);
    isValid := errors.name == "" && errors.email == "" && errors.password == "" && errors.confirmPassword == "";
  }

  /** The arguments handleSubmit passes to register. */
  datatype RegisterCall = RegisterCall(name: string, email: string, password: string)

  /** handleSubmit: register is called, with the form's values, exactly when
      the form is valid; a valid form has a non-blank name, a well-shaped
      email and a confirmed password of at least six characters. */
  method HandleSubmit(f: Form) returns (errors: Errors, call: Option<RegisterCall>)
    ensures call.Some? <==> errors == Errors("", "", "", "")
    ensures call.Some? ==> call.value == RegisterCall(f.name, f.email, f.password)
    ensures call.Some? ==> && !AllWhitespace(f.name) && EmailShaped(f.email)
                           && |f.password| >= MinPasswordLength && f.password == f.confirmPassword
  {
    var isValid;
    errors, isValid := ValidateForm(f);
    call := if isValid then Some(RegisterCall(f.name, f.email, f.password)) else None;
  }

  /** The emptiness check trims, the shape check does not: an address with a
      leading space is reported invalid rather than missing. */
  lemma LeadingSpaceIsInvalid()
    ensures !AllWhitespace(" a@b.c")
    ensures !EmailShaped(" a@b.c")
  {
    assert !IsWhitespace(" a@b.c"[1]);
    assert IsWhitespace(" a@b.c"[0]);
  }

  /** A minimal accepted address. */
  lemma ShortestAddress()
    ensures EmailShaped("a@b.c")
  {
    assert "a@b.c"[1] == '@' && "a@b.c"[3] == '.';
  }
}

=== FILE: share_modal.dfy ===
/** The submit handler of
    frontend/src/components/modals/ShareTaskModal.tsx: the comma-separated
    address list is split, trimmed and stripped of empty entries, and the
    share call is made only with a non-empty list. */
module ShareModal {

  import opened Common

  const EnterOneAddress := "Please enter at least one email address"
  const EnterValidAddresses := "Please enter valid email addresses"
  const ShareFailed := "Failed to share task"

  function TrimAll(pieces: seq<string>): (r: seq<string>)
    ensures |r| == |pieces|
    ensures forall i :: 0 <= i < |pieces| ==> r[i] == Trim(pieces[i])
  {
    if |pieces| == 0 then [] else [Trim(pieces[0])] + TrimAll(pieces[1..])
  }

  predicate NonEmpty(s: string) {
    s != ""
  }

  /** emails.split(',').map(e => e.trim()).filter(e => e). */
  function ParseEmails(emails: string): (r: seq<string>)
    ensures |r| <= CountChar(emails, ',') + 1
    ensures forall e :: e in r ==> e != "" && IsTrimmed(e) && ',' !in e
    ensures IsSubsequence(r, TrimAll(Split(emails, ',')))
    ensures forall e :: e in TrimAll(Split(emails, ',')) && e != "" ==> e in r
    ensures forall e :: e in TrimAll(Split(emails, ','))
                        ==> multiset(r)[e] == if e != "" then multiset(TrimAll(Split(emails, ',')))[e] else 0
  {
    var trimmed := TrimAll(Split(emails, ','));
    ParsedEntries(Split(emails, ','), trimmed);
    Filter(trimmed, NonEmpty)
  }

  lemma ParsedEntries(pieces: seq<string>, trimmed: seq<string>)
    requires trimmed == TrimAll(pieces)
    requires forall i :: 0 <= i < |pieces| ==> ',' !in pieces[i]
    ensures forall e :: e in Filter(trimmed, NonEmpty) ==> e != "" && IsTrimmed(e) && ',' !in e
    ensures IsSubsequence(Filter(trimmed, NonEmpty), trimmed)
    ensures forall e :: e in trimmed
                        ==> multiset(Filter(trimmed, NonEmpty))[e] == if e != "" then multiset(trimmed)[e] else 0
  {
    FilterIsSubsequence(trimmed, NonEmpty);
    FilterCounts(trimmed, NonEmpty);
    forall e | e in Filter(trimmed, NonEmpty) ensures e != "" && IsTrimmed(e) && ',' !in e {
      assert e in trimmed && NonEmpty(e);
      var k :| 0 <= k < |trimmed| && trimmed[k] == e;
      assert e == Trim(pieces[k]);
      TrimKeepsCharacters(pieces[k]);
    }
  }

  /** Writing addresses with commas between them and parsing the text gives
      the same addresses back. */
  lemma {:induction false} ParseJoined(addresses: seq<string>)
    requires |addresses| >= 1
    requires forall e :: e in addresses ==> e != "" && IsTrimmed(e) && ',' !in e
    ensures ParseEmails(Join(addresses, ',')) == addresses
  {
    SplitJoin(addresses, ',');
    forall i | 0 <= i < |addresses| ensures TrimAll(addresses)[i] == addresses[i] {
      TrimmedIsFixed(addresses[i]);
    }
    assert TrimAll(addresses) == addresses;
    FilterKeepsAllWhenAllPass(addresses, NonEmpty);
  }

  /** How the share request ends: the server accepts it, or it fails with the
      server's message if there was a response carrying one. */
  datatype ShareOutcome = Shared | Failed(serverMessage: Option<string>)

  /** What the handler leaves behind: the error shown, whether the success
      banner is up, and the share call it made, if any. */
  datatype Submitted = Submitted(error: Option<string>, success: bool, call: Option<(string, seq<string>)>)

  /** handleSubmit; `success` is the banner flag before the submit and
      `outcome` is how the share call ends when it is made. The handler only
      ever raises the flag; the timer that lowers it again is not modelled. */
  function HandleSubmit(emails: string, taskId: string, success: bool, outcome: ShareOutcome): (r: Submitted)
    ensures AllWhitespace(emails) ==> r == Submitted(Some(EnterOneAddress), success, None)
    ensures !AllWhitespace(emails) && ParseEmails(emails) == [] ==> r == Submitted(Some(EnterValidAddresses), success, None)
    ensures r.call.Some? <==> !AllWhitespace(emails) && ParseEmails(emails) != []
    ensures r.call.Some? ==> r.call.value == (taskId, ParseEmails(emails)) && |r.call.value.1| > 0
    ensures r.call.Some? && outcome.Shared? ==> r.error.None? && r.success
    ensures r.call.Some? && outcome.Failed? ==>
              && r.success == success
              && r.error == Some(MessageOr(outcome.serverMessage, ShareFailed))
    ensures success ==> r.success
  {
    if Trim(emails) == "" then Submitted(Some(EnterOneAddress), success, None)
    else
      var list := ParseEmails(emails);
      if |list| == 0 then Submitted(Some(EnterValidAddresses), success, None)
      else
        match outcome
        case Shared => Submitted(None, true, Some((taskId, list)))
        case Failed(m) =>
          Submitted(Some(MessageOr(m, ShareFailed)), success, Some((taskId, list)))
  }

  /** Text that is not blank may still hold no address: ",," is refused as
      invalid rather than missing. */
  lemma OnlyCommasAreInvalid(taskId: string, success: bool, outcome: ShareOutcome)
    ensures HandleSubmit(",,", taskId, success, outcome) == Submitted(Some(EnterValidAddresses), success, None)
  {
    assert !IsWhitespace(",,"[0]);
    assert Split(",,", ',') == ["", "", ""];
  }
}

=== FILE: sorting.dfy ===
/** Sorting by an integer key. The source sorts three times: notifications
    newest-first (a database sort on createdAt), dashboard tasks newest-first
    (Array.prototype.sort, which is stable) and trend buckets by ascending day.
    All three are modelled by one stable insertion sort on an ascending key;
    a descending order is the ascending order of the negated key. */
module Sorting {

  import opened Common

  predicate SortedBy<T>(s: seq<T>, key: T -> int) {
    forall i, j :: 0 <= i < j < |s| ==> key(s[i]) <= key(s[j])
  }

  /** Inserts `x` before the first element with a strictly larger key, so that
      elements with equal keys keep their relative order. */
  function InsertBy<T(==)>(x: T, s: seq<T>, key: T -> int): (r: seq<T>)
    requires SortedBy(s, key)
    ensures |r| == |s| + 1
    ensures SortedBy(r, key)
    ensures multiset(r) == multiset(s) + multiset{x}
  {
    if |s| == 0 || key(x) <= key(s[0]) then
      [x] + s
    else
      var rest := InsertBy(x, s[1..], key);
      InsertedAfterHead(x, s, key, rest);
      assert s == [s[0]] + s[1..];
      [s[0]] + rest
  }

  lemma InsertedAfterHead<T>(x: T, s: seq<T>, key: T -> int, rest: seq<T>)
    requires |s| > 0 && SortedBy(s, key) && key(s[0]) < key(x)
    requires SortedBy(rest, key) && multiset(rest) == multiset(s[1..]) + multiset{x}
    ensures SortedBy([s[0]] + rest, key)
  {
    var r := [s[0]] + rest;
    forall j | 0 <= j < |rest| ensures key(s[0]) <= key(rest[j]) {
      assert rest[j] in multiset(rest);
      if rest[j] != x {
        assert rest[j] in s[1..];
      }
    }
    assert forall i, j :: 0 < i < j < |r| ==> r[i] == rest[i - 1] && r[j] == rest[j - 1];
  }

  /** The elements of `s` reordered so that keys ascend. */
  function SortBy<T(==)>(s: seq<T>, key: T -> int): (r: seq<T>)
    ensures |r| == |s|
    ensures SortedBy(r, key)
    ensures multiset(r) == multiset(s)
  {
    if |s| == 0 then []
    else
      assert s == [s[0]] + s[1..];
      InsertBy(s[0], SortBy(s[1..], key), key)
  }

  /** The first `k` elements of the sorted order have the smallest keys: every
      element left out has a key at least as large as every element kept. */
  lemma {:induction false} PrefixHasSmallestKeys<T>(s: seq<T>, key: T -> int, k: nat)
    ensures forall x, y :: x in Take(SortBy(s, key), k) && y in s && y !in Take(SortBy(s, key), k)
                           ==> key(x) <= key(y)
  {
    var sorted := SortBy(s, key);
    var kept := Take(sorted, k);
    forall x, y | x in kept && y in s && y !in kept
      ensures key(x) <= key(y)
    {
      assert y in multiset(sorted);
      var j :| 0 <= j < |sorted| && sorted[j] == y;
      var i :| 0 <= i < |kept| && kept[i] == x;
      assert forall m :: 0 <= m < |kept| ==> kept[m] == sorted[m];
      assert j >= |kept|;
      assert sorted[i] == x;
    }
  }
}

=== FILE: task_context.dfy ===
/** The client-side task list of frontend/src/context/TaskContext.tsx: the
    status filter, the case-insensitive search, the progress percentage, and
    how the cached list changes when a request to the task API returns.
    Tasks arrive as the JSON of the stored documents, so they are modelled by
    the same datatype. */
module TaskContext {

  import opened Common
  import opened TaskModel
  import Analytics

  // ---------------------------------------------------------------------------
  // Queries over the cached list
  // ---------------------------------------------------------------------------

  const AllStatuses := "All"

  function HasStatusName(status: string): Task -> bool {
    (t: Task) => StatusName(t.status) == status
  }

  /** filterTasks: the whole list for "All"; otherwise exactly the tasks whose
      status is named `status`, in their order. */
  function FilterTasks(tasks: seq<Task>, status: string): (r: seq<Task>)
    ensures status == AllStatuses ==> r == tasks
    ensures status != AllStatuses ==> forall t :: t in r <==> t in tasks && StatusName(t.status) == status
    ensures status != AllStatuses ==> |r| == CountWhere(tasks, HasStatusName(status))
    ensures IsSubsequence(r, tasks)
  {
    if status == AllStatuses then
      SubsequenceReflexive(tasks);
      tasks
    else
      FilterIsSubsequence(tasks, HasStatusName(status));
      Filter(tasks, HasStatusName(status))
  }

  /** "All" is not the name of any status, so filtering by it never empties the list. */
  lemma AllIsNotAStatus(s: Status)
    ensures StatusName(s) != AllStatuses
  {
  }

  /** The search predicate: the lower-cased title contains the lower-cased
      term, or there is a non-empty description whose lower-cased text does. */
  predicate MatchesTerm(t: Task, term: string) {
    || Contains(ToLower(t.title), ToLower(term))
    || (t.description.Some? && t.description.value != "" && Contains(ToLower(t.description.value), ToLower(term)))
  }

  function Matching(term: string): Task -> bool {
    (t: Task) => MatchesTerm(t, term)
  }

  /** searchTasks: the whole list for an empty term; otherwise the tasks that
      match it, in their order. */
  function SearchTasks(tasks: seq<Task>, term: string): (r: seq<Task>)
    ensures term == "" ==> r == tasks
    ensures term != "" ==> forall t :: t in r <==> t in tasks && MatchesTerm(t, term)
    ensures term != "" ==> |r| == CountWhere(tasks, Matching(term))
    ensures IsSubsequence(r, tasks)
  {
    if term == "" then
      SubsequenceReflexive(tasks);
      tasks
    else
      FilterIsSubsequence(tasks, Matching(term));
      Filter(tasks, Matching(term))
  }

  /** The search ignores letter case in the term: a term and its lower-case
      form select the same tasks. */
  lemma {:induction false} SearchIgnoresCase(tasks: seq<Task>, term: string)
    ensures SearchTasks(tasks, ToLower(term)) == SearchTasks(tasks, term)
  {
    LowerIdempotent(term);
    if term != "" {
      FilterCongruent(tasks, Matching(ToLower(term)), Matching(term));
    }
  }

  lemma LowerIdempotent(s: string)
    ensures ToLower(ToLower(s)) == ToLower(s)
  {
  }

  /** Every task matches the empty string, so a search that only filtered
      would keep everything too. */
  lemma EveryTaskMatchesEmptyTerm(t: Task)
    ensures MatchesTerm(t, "")
  {
    EmptyNeedleOccurs(ToLower(t.title));
  }

  function IsCompleted(t: Task): bool {
    t.status == Completed
  }

  /** getTaskProgress: 0 for an empty list, else the share of completed tasks
      as a whole percentage rounded half up. */
  function GetTaskProgress(tasks: seq<Task>): (r: nat)
    ensures |tasks| == 0 ==> r == 0
    ensures |tasks| > 0 ==> (2 * r - 1) * |tasks| <= 200 * CountWhere(tasks, IsCompleted) < (2 * r + 1) * |tasks|
    ensures r <= 100
    ensures CountWhere(tasks, IsCompleted) == |tasks| > 0 ==> r == 100
  {
    if |tasks| == 0 then 0 else RoundPercent(CountWhere(tasks, IsCompleted), |tasks|)
  }

  // ---------------------------------------------------------------------------
  // The cached state and how responses change it
  // ---------------------------------------------------------------------------

  datatype State = State(
    tasks: seq<Task>,
    task: Option<Task>,
    loading: bool,
    error: Option<string>,
    success: bool)

  /** The outcome of an API call: the response body, or a failure carrying the
      server's `message` if it sent one. */
  datatype Response<T> = Success(data: T) | Failure(serverMessage: Option<string>)

  const FetchTasksFailed := "Failed to fetch tasks"
  const FetchTaskFailed := "Failed to fetch task"
  const CreateFailed := "Failed to create task"
  const UpdateFailed := "Failed to update task"
  const DeleteFailed := "Failed to delete task"

  /** getTasks: the response replaces the list; a failure keeps it. */
  function AfterGetTasks(s: State, resp: Response<seq<Task>>): (r: State)
    ensures !r.loading && r.task == s.task && r.success == s.success
    ensures resp.Success? ==> r.tasks == resp.data && r.error.None?
    ensures resp.Failure? ==> r.tasks == s.tasks && r.error == Some(MessageOr(resp.serverMessage, FetchTasksFailed))
  {
    match resp
    case Success(data) => s.(tasks := data, error := None, loading := false)
    case Failure(m) => s.(error := Some(MessageOr(m, FetchTasksFailed)), loading := false)
  }

  /** getTask: the response becomes the current task; the list is untouched. */
  function AfterGetTask(s: State, resp: Response<Task>): (r: State)
    ensures !r.loading && r.tasks == s.tasks && r.success == s.success
    ensures resp.Success? ==> r.task == Some(resp.data) && r.error.None?
    ensures resp.Failure? ==> r.task == s.task && r.error == Some(MessageOr(resp.serverMessage, FetchTaskFailed))
  {
    match resp
    case Success(data) => s.(task := Some(data), error := None, loading := false)
    case Failure(m) => s.(error := Some(MessageOr(m, FetchTaskFailed)), loading := false)
  }

  /** createTask: the created task is appended; a failure keeps the list. */
  function AfterCreate(s: State, resp: Response<Task>): (r: State)
    ensures !r.loading && r.task == s.task
    ensures resp.Success? ==> && r.tasks == s.tasks + [resp.data] && r.success && r.error.None?
    ensures resp.Failure? ==> && r.tasks == s.tasks && !r.success
                              && r.error == Some(MessageOr(resp.serverMessage, CreateFailed))
  {
    match resp
    case Success(data) => s.(tasks := s.tasks + [data], error := None, success := true, loading := false)
    case Failure(m) => s.(error := Some(MessageOr(m, CreateFailed)), success := false, loading := false)
  }

  /** tasks.map(task => task._id === id ? data : task). */
  function ReplaceById(tasks: seq<Task>, id: TaskId, data: Task): (r: seq<Task>)
    ensures |r| == |tasks|
    ensures forall i :: 0 <= i < |tasks| && tasks[i].id != id ==> r[i] == tasks[i]
    ensures forall i :: 0 <= i < |tasks| && tasks[i].id == id ==> r[i] == data
  {
    seq(|tasks|, i requires 0 <= i < |tasks| => if tasks[i].id == id then data else tasks[i])
  }

  /** updateTask: the entry with the id is replaced and becomes the current task. */
  function AfterUpdate(s: State, id: TaskId, resp: Response<Task>): (r: State)
    ensures !r.loading
    ensures resp.Success? ==> && r.tasks == ReplaceById(s.tasks, id, resp.data)
                              && r.task == Some(resp.data) && r.success && r.error.None?
    ensures resp.Failure? ==> && r.tasks == s.tasks && r.task == s.task && !r.success
                              && r.error == Some(MessageOr(resp.serverMessage, UpdateFailed))
  {
    match resp
    case Success(data) =>
      s.(tasks := ReplaceById(s.tasks, id, data), task := Some(data), error := None, success := true, loading := false)
    case Failure(m) => s.(error := Some(MessageOr(m, UpdateFailed)), success := false, loading := false)
  }

  function NotId(id: TaskId): Task -> bool {
    (t: Task) => t.id != id
  }

  /** deleteTask: every entry with the id is dropped, the rest kept in order. */
  function AfterDelete(s: State, id: TaskId, succeeded: bool, serverMessage: Option<string>): (r: State)
    ensures !r.loading && r.task == s.task
    ensures succeeded ==> && (forall t :: t in r.tasks ==> t.id != id)
                          && (forall t :: t in s.tasks && t.id != id ==> t in r.tasks)
                          && IsSubsequence(r.tasks, s.tasks)
                          && |r.tasks| == CountWhere(s.tasks, NotId(id))
                          && r.success && r.error.None?
    ensures !succeeded ==> && r.tasks == s.tasks && !r.success
                           && r.error == Some(MessageOr(serverMessage, DeleteFailed))
  {
    if succeeded then
      FilterIsSubsequence(s.tasks, NotId(id));
      s.(tasks := Filter(s.tasks, NotId(id)), error := None, success := true, loading := false)
    else
      s.(error := Some(MessageOr(serverMessage, DeleteFailed)), success := false, loading := false)
  }

  /** clearTask: forgets the current task (the lines both versions of the file share). */
  function ClearTask(s: State): (r: State)
    ensures r.task.None? && r.tasks == s.tasks && r.error == s.error
  {
    s.(task := None)
  }

  function ClearError(s: State): (r: State)
    ensures r.error.None? && r == s.(error := None)
  {
    s.(error := None)
  }

  // ---------------------------------------------------------------------------
  // Properties relating the operations
  // ---------------------------------------------------------------------------

  /** Deleting a freshly created task restores the list it was added to. */
  lemma DeleteUndoesCreate(s: State, created: Task)
    requires forall t :: t in s.tasks ==> t.id != created.id
    ensures AfterDelete(AfterCreate(s, Success(created)), created.id, true, None).tasks == s.tasks
  {
    FilterAppend(s.tasks, [created], NotId(created.id));
    FilterKeepsAllWhenAllPass(s.tasks, NotId(created.id));
  }

  /** Applying the same successful update twice leaves the list as once. */
  lemma UpdateIdempotent(s: State, id: TaskId, data: Task)
    requires data.id == id
    ensures var once := AfterUpdate(s, id, Success(data));
            AfterUpdate(once, id, Success(data)).tasks == once.tasks
  {
  }

  /** The status filter and the search commute. */
  lemma FilterAndSearchCommute(tasks: seq<Task>, status: string, term: string)
    ensures SearchTasks(FilterTasks(tasks, status), term) == FilterTasks(SearchTasks(tasks, term), status)
  {
    if status != AllStatuses && term != "" {
      FilterCommutes(tasks, HasStatusName(status), Matching(term));
    }
  }

  /** The client's progress over a list of tasks all visible to a user is the
      completion rate the analytics overview reports for that list. */
  lemma ProgressMatchesOverview(tasks: seq<Task>, u: UserId)
    requires forall t :: t in tasks ==> Analytics.Visible(t, u)
    ensures GetTaskProgress(tasks) == Analytics.GetAnalyticsOverview(tasks, u).completionRate
  {
    FilterKeepsAllWhenAllPass(tasks, Analytics.VisibleTo(u));
    FilterCongruent(tasks, Analytics.VisibleWithStatus(u, Completed), IsCompleted);
  }
}

=== FILE: task_controller.dfy ===
/** The task handlers of backend/controllers/taskController.js as transitions
    over the task collection. Every handler but create answers only to the
    task's `user`; a missing task and another user's task get the same 404. */
module TaskController {

  import opened Common
  import opened Http
  import opened TaskModel

  /** The task collection, in natural (insertion) order. */
  type Store = seq<Task>

  /** The `_id` index: no two documents share an id. */
  predicate UniqueIds(store: Store) {
    forall i, j :: 0 <= i < j < |store| ==> store[i].id != store[j].id
  }

  predicate ValidStore(store: Store) {
    && UniqueIds(store)
    && forall i :: 0 <= i < |store| ==> Conforms(store[i])
  }

  predicate HasId(store: Store, id: TaskId) {
    exists i :: 0 <= i < |store| && store[i].id == id
  }

  /** The fields of a create or update request body; absent ones are `None`. */
  datatype TaskBody = TaskBody(
    title: Option<string>,
    description: Option<string>,
    status: Option<string>,
    dueDate: Option<Timestamp>)

  /** A handler's reply together with the collection it leaves behind. */
  datatype Reply<T> = Reply(store: Store, result: Result<T, ApiError>)

  const TaskNotFound: ApiError := Respond(404, "Task not found")
  const InvalidTaskData: ApiError := Respond(400, "Invalid task data")
  const TaskRemoved: string := "Task removed"

  /** Task.findById: the position of the document with that id. */
  function FindById(store: Store, id: TaskId): (r: Option<nat>)
    ensures r.Some? ==> r.value < |store| && store[r.value].id == id
    ensures r.None? <==> !HasId(store, id)
  {
    if |store| == 0 then None
    else if store[0].id == id then Some(0)
    else
      match FindById(store[1..], id)
      case None => None
      case Some(i) => Some(i + 1)
  }

  /** The task `requester` may read, update or delete under that id. */
  predicate Answers(store: Store, id: TaskId, requester: UserId) {
    exists i :: 0 <= i < |store| && store[i].id == id && store[i].user == requester
  }

  lemma FoundIsUnique(store: Store, id: TaskId, i: nat)
    requires UniqueIds(store) && i < |store| && store[i].id == id
    ensures FindById(store, id) == Some(i)
  {
  }

  // ---------------------------------------------------------------------------
  // GET /api/tasks and GET /api/tasks/:id
  // ---------------------------------------------------------------------------

  function OwnedBy(requester: UserId): Task -> bool {
    (t: Task) => t.user == requester
  }

  /** getTasks: the requester's tasks, every one of them, in collection order. */
  function GetTasks(store: Store, requester: UserId): (r: seq<Task>)
    ensures forall t :: t in r ==> t in store && t.user == requester
    ensures forall t :: t in store && t.user == requester ==> t in r
    ensures |r| == |set i: nat | i < |store| && store[i].user == requester|
    ensures IsSubsequence(r, store)
  {
    FilterIsSubsequence(store, OwnedBy(requester));
    CountIsPositions(store, OwnedBy(requester));
    assert Positions(store, OwnedBy(requester)) == set i: nat | i < |store| && store[i].user == requester;
    Filter(store, OwnedBy(requester))
  }

  /** getTaskById: the task when it exists and belongs to the requester,
      otherwise the same 404 whether it is missing or someone else's. */
  function GetTaskById(store: Store, id: TaskId, requester: UserId): (r: Result<Task, ApiError>)
    requires UniqueIds(store)
    ensures r.Ok? <==> Answers(store, id, requester)
    ensures r.Ok? ==> r.value in store && r.value.id == id && r.value.user == requester
    ensures r.Err? ==> r.error == TaskNotFound
  {
    match FindById(store, id)
    case Some(i) =>
      if store[i].user == requester then Ok(store[i]) else Err(TaskNotFound)
    case None => Err(TaskNotFound)
  }

  // ---------------------------------------------------------------------------
  // POST /api/tasks
  // ---------------------------------------------------------------------------

  /** createTask: refused with 400 when the route's validators reported
      anything; otherwise the new document, owned by the requester in its
      `user` field, is appended to the collection. `newId` is the fresh id the
      database assigns. */
  function CreateTask(store: Store, requester: UserId, body: TaskBody, validationErrors: seq<string>,
                      newId: TaskId, now: Timestamp): (r: Reply<Task>)
    requires !HasId(store, newId)
    ensures |validationErrors| > 0 ==> r == Reply(store, Err(InvalidTaskData))
    ensures r.result.Err? ==> r.store == store
    ensures r.result.Ok? ==> && |validationErrors| == 0
                             && r.store == store + [r.result.value]
                             && r.result.value.id == newId
                             && r.result.value.user == requester
                             && Conforms(r.result.value)
                             && body.title.Some? && r.result.value.title == Trim(body.title.value)
                             && r.result.value.dueDate == body.dueDate
                             && r.result.value.description == (if body.description.Some? then Some(Trim(body.description.value)) else None)
                             && (body.status.Some? ==> StatusName(r.result.value.status) == body.status.value)
                             && r.result.value.createdAt == now && r.result.value.updatedAt == now
                             && r.result.value.owner.None? && r.result.value.sharedWith == []
                             && r.result.value.attachments == []
    ensures body.status.None? && r.result.Ok? ==> r.result.value.status == Pending
    ensures |validationErrors| == 0 ==>
              (r.result.Ok? <==> CastTitle(body.title).Ok? && CastStatus(body.status).Ok?)
    ensures |validationErrors| == 0 && r.result.Err? ==>
              r.result.error == Uncaught(ValidationError(Failures(CastTitle(body.title), CastStatus(body.status))).Message())
  {
    if |validationErrors| > 0 then Reply(store, Err(InvalidTaskData))
    else
      var fields := NewTaskFields(requester, body.title, body.description, body.status, body.dueDate);
      match CreateDocument(newId, fields, now)
      case Ok(t) => Reply(store + [t], Ok(t))
      case Err(e) => Reply(store, Err(Uncaught(e.Message())))
  }

  // ---------------------------------------------------------------------------
  // PUT /api/tasks/:id
  // ---------------------------------------------------------------------------

  /** `value || fallback` for a string field: empty and missing values are falsy. */
  predicate Truthy(v: Option<string>) {
    v.Some? && v.value != ""
  }

  predicate SameFields(a: Task, b: Task) {
    a.title == b.title && a.description == b.description && a.status == b.status && a.dueDate == b.dueDate
  }

  /** The four assignments of updateTask followed by save(): each field takes
      the incoming value only when it is truthy (passing through the trimming
      setters), the document is validated, and updatedAt moves to `now` only
      when some field actually changed. */
  function ApplyUpdate(t: Task, body: TaskBody, now: Timestamp): (r: Result<Task, ValidationError>)
    ensures r.Err? <==> (Truthy(body.title) && AllWhitespace(body.title.value))
                        || (Truthy(body.status) && ParseStatus(body.status.value).None?)
    ensures r.Err? ==> (TitleRequired in r.error.failures <==> Truthy(body.title) && AllWhitespace(body.title.value))
    ensures r.Err? ==> forall name :: StatusNotInEnum(name) in r.error.failures
                                      <==> Truthy(body.status) && name == body.status.value && ParseStatus(name).None?
    ensures r.Err? && Truthy(body.title) && AllWhitespace(body.title.value) ==> r.error.failures[0] == TitleRequired
    ensures r.Ok? ==> && r.value.id == t.id && r.value.user == t.user && r.value.owner == t.owner
                      && r.value.sharedWith == t.sharedWith && r.value.attachments == t.attachments
                      && r.value.createdAt == t.createdAt
    ensures r.Ok? ==> r.value.title == if Truthy(body.title) then Trim(body.title.value) else t.title
    ensures r.Ok? ==> r.value.description == if Truthy(body.description) then Some(Trim(body.description.value)) else t.description
    ensures r.Ok? && Truthy(body.status) ==> StatusName(r.value.status) == body.status.value
    ensures r.Ok? && !Truthy(body.status) ==> r.value.status == t.status
    ensures r.Ok? ==> r.value.dueDate == if body.dueDate.Some? then body.dueDate else t.dueDate
    ensures r.Ok? ==> r.value.updatedAt == if SameFields(r.value, t) then t.updatedAt else now
  {
    var title := if Truthy(body.title) then CastTitle(body.title) else Ok(t.title);
    var status := if Truthy(body.status) then CastStatus(body.status) else Ok(t.status);
    if title.Err? || status.Err? then Err(ValidationError(Failures(title, status)))
    else
      var description := if Truthy(body.description) then CastDescription(body.description) else t.description;
      var dueDate := if body.dueDate.Some? then body.dueDate else t.dueDate;
      var u := t.(title := title.value, description := description, status := status.value, dueDate := dueDate);
      Ok(if SameFields(u, t) then u else u.(updatedAt := now))
  }

  /** updateTask: a partial update of the requester's task; 404 for a missing
      or foreign task and the validation error of save() both leave the
      collection as it was. */
  function UpdateTask(store: Store, id: TaskId, requester: UserId, body: TaskBody, now: Timestamp): (r: Reply<Task>)
    requires UniqueIds(store)
    ensures !Answers(store, id, requester) ==> r == Reply(store, Err(TaskNotFound))
    ensures r.result.Err? ==> r.store == store
    ensures r.result.Ok? ==> Answers(store, id, requester)
    ensures r.result.Ok? ==> exists i :: 0 <= i < |store| && store[i].id == id
                                         && ApplyUpdate(store[i], body, now) == Ok(r.result.value)
                                         && r.store == store[i := r.result.value]
    ensures forall i :: 0 <= i < |store| && store[i].id == id && store[i].user == requester ==>
              match ApplyUpdate(store[i], body, now)
              case Ok(u) => r == Reply(store[i := u], Ok(u))
              case Err(e) => r == Reply(store, Err(Uncaught(e.Message())))
  {
    match FindById(store, id)
    case None => Reply(store, Err(TaskNotFound))
    case Some(i) =>
      if store[i].user != requester then Reply(store, Err(TaskNotFound))
      else
        match ApplyUpdate(store[i], body, now)
        case Ok(u) => Reply(store[i := u], Ok(u))
        case Err(e) => Reply(store, Err(Uncaught(e.Message())))
  }

  // ---------------------------------------------------------------------------
  // DELETE /api/tasks/:id
  // ---------------------------------------------------------------------------

  /** deleteTask: removes the requester's task and nothing else; a missing or
      foreign task gets 404 and removes nothing. */
  function DeleteTask(store: Store, id: TaskId, requester: UserId): (r: Reply<string>)
    requires UniqueIds(store)
    ensures !Answers(store, id, requester) ==> r == Reply(store, Err(TaskNotFound))
    ensures Answers(store, id, requester) ==> r.result == Ok(TaskRemoved)
    ensures r.result.Ok? ==> && !HasId(r.store, id)
                             && |r.store| == |store| - 1
                             && forall t :: t in store && t.id != id ==> t in r.store
    ensures IsSubsequence(r.store, store)
  {
    SubsequenceReflexive(store);
    match FindById(store, id)
    case None => Reply(store, Err(TaskNotFound))
    case Some(i) =>
      if store[i].user != requester then Reply(store, Err(TaskNotFound))
      else
        var rest := Filter(store, (t: Task) => t.id != id);
        RemoveById(store, id, i);
        FilterIsSubsequence(store, (t: Task) => t.id != id);
        assert !HasId(rest, id) by {
          forall k | 0 <= k < |rest| ensures rest[k].id != id {
            assert rest[k] in rest;
          }
        }
        Reply(rest, Ok(TaskRemoved))
  }

  lemma RemoveById(store: Store, id: TaskId, i: nat)
    requires UniqueIds(store) && i < |store| && store[i].id == id
    ensures |Filter(store, (t: Task) => t.id != id)| == |store| - 1
  {
    var p := (t: Task) => t.id != id;
    assert store == store[..i] + [store[i]] + store[i + 1..];
    FilterAppend(store[..i] + [store[i]], store[i + 1..], p);
    FilterAppend(store[..i], [store[i]], p);
    FilterKeepsAllWhenAllPass(store[..i], p);
    FilterKeepsAllWhenAllPass(store[i + 1..], p);
  }

  // ---------------------------------------------------------------------------
  // Properties relating the handlers
  // ---------------------------------------------------------------------------

  /** Applying the same update twice has the effect of applying it once, even
      at a later time: the second save changes no field, so updatedAt stays. */
  lemma UpdateIdempotent(t: Task, body: TaskBody, now: Timestamp, later: Timestamp)
    requires ApplyUpdate(t, body, now).Ok?
    ensures ApplyUpdate(ApplyUpdate(t, body, now).value, body, later) == ApplyUpdate(t, body, now)
  {
    if Truthy(body.title) {
      TrimIdempotent(body.title.value);
    }
    if Truthy(body.description) {
      TrimIdempotent(body.description.value);
    }
    if Truthy(body.status) {
      var u := ApplyUpdate(t, body, now).value;
      StatusNamesDistinct(u.status, ApplyUpdate(u, body, later).value.status);
    }
  }

  lemma UpdateTaskIdempotent(store: Store, id: TaskId, requester: UserId, body: TaskBody, now: Timestamp, later: Timestamp)
    requires UniqueIds(store)
    requires UpdateTask(store, id, requester, body, now).result.Ok?
    ensures UniqueIds(UpdateTask(store, id, requester, body, now).store)
    ensures var once := UpdateTask(store, id, requester, body, now);
            UpdateTask(once.store, id, requester, body, later) == once
  {
    var once := UpdateTask(store, id, requester, body, now);
    var i := FindById(store, id).value;
    var u := once.result.value;
    assert once.store == store[i := u];
    assert UniqueIds(once.store) by {
      forall a, b | 0 <= a < b < |once.store| ensures once.store[a].id != once.store[b].id {
        assert once.store[a].id == store[a].id && once.store[b].id == store[b].id;
      }
    }
    FoundIsUnique(once.store, id, i);
    UpdateIdempotent(store[i], body, now, later);
    assert once.store[i := u] == once.store;
  }

  /** Every handler keeps the collection well-formed: unique ids, titles
      present and trimmed, trimmed descriptions, createdAt <= updatedAt. */
  lemma CreatePreservesValid(store: Store, requester: UserId, body: TaskBody, validationErrors: seq<string>,
                             newId: TaskId, now: Timestamp)
    requires ValidStore(store) && !HasId(store, newId)
    ensures ValidStore(CreateTask(store, requester, body, validationErrors, newId, now).store)
  {
    var r := CreateTask(store, requester, body, validationErrors, newId, now);
    if r.result.Ok? {
      AppendKeepsValid(store, r.result.value);
    }
  }

  lemma AppendKeepsValid(store: Store, t: Task)
    requires ValidStore(store) && Conforms(t) && !HasId(store, t.id)
    ensures ValidStore(store + [t])
  {
    var s := store + [t];
    forall a, b | 0 <= a < b < |s| ensures s[a].id != s[b].id {
      assert s[a] == store[a] || b < |store|;
    }
  }

  lemma UpdatePreservesValid(store: Store, id: TaskId, requester: UserId, body: TaskBody, now: Timestamp)
    requires ValidStore(store)
    requires forall i :: 0 <= i < |store| ==> store[i].createdAt <= now
    ensures ValidStore(UpdateTask(store, id, requester, body, now).store)
  {
    var r := UpdateTask(store, id, requester, body, now);
    if r.result.Ok? {
      var i :| 0 <= i < |store| && store[i].id == id && ApplyUpdate(store[i], body, now) == Ok(r.result.value)
                && r.store == store[i := r.result.value];
      ReplaceKeepsValid(store, i, r.result.value);
    }
  }

  lemma ReplaceKeepsValid(store: Store, i: nat, u: Task)
    requires ValidStore(store) && i < |store| && u.id == store[i].id && Conforms(u)
    ensures ValidStore(store[i := u])
  {
    var s := store[i := u];
    forall a, b | 0 <= a < b < |s| ensures s[a].id != s[b].id {
      assert s[a].id == store[a].id && s[b].id == store[b].id;
    }
  }

  lemma DeletePreservesValid(store: Store, id: TaskId, requester: UserId)
    requires ValidStore(store)
    ensures ValidStore(DeleteTask(store, id, requester).store)
  {
    var r := DeleteTask(store, id, requester);
    if r.result.Ok? {
      SubsequenceKeepsValid(r.store, store);
    }
  }

  lemma {:induction false} SubsequenceKeepsValid(r: Store, s: Store)
    requires ValidStore(s) && IsSubsequence(r, s)
    ensures ValidStore(r)
    decreases |s|
  {
    if |r| > 0 && |s| > 0 {
      if r[0] == s[0] {
        SubsequenceKeepsValid(r[1..], s[1..]);
        SubsequenceMembers(r[1..], s[1..]);
        forall j | 0 < j < |r| ensures r[0].id != r[j].id {
          assert r[j] == r[1..][j - 1];
          assert r[j] in r[1..];
          var k :| 0 <= k < |s[1..]| && s[1..][k] == r[j];
          assert s[k + 1] == r[j];
        }
        forall i, j | 0 < i < j < |r| ensures r[i].id != r[j].id {
          assert r[i] == r[1..][i - 1] && r[j] == r[1..][j - 1];
        }
        forall i | 0 < i < |r| ensures Conforms(r[i]) {
          assert r[i] == r[1..][i - 1];
        }
      } else {
        SubsequenceKeepsValid(r, s[1..]);
      }
    }
  }

  /** Deleting a task that was just created restores the collection. */
  lemma DeleteUndoesCreate(store: Store, requester: UserId, body: TaskBody, newId: TaskId, now: Timestamp)
    requires UniqueIds(store) && !HasId(store, newId)
    requires CreateTask(store, requester, body, [], newId, now).result.Ok?
    ensures var created := CreateTask(store, requester, body, [], newId, now).store;
            UniqueIds(created) && DeleteTask(created, newId, requester).store == store
  {
    var r := CreateTask(store, requester, body, [], newId, now);
    DeleteAppended(store, r.result.value, requester);
  }

  lemma DeleteAppended(store: Store, t: Task, requester: UserId)
    requires UniqueIds(store) && !HasId(store, t.id) && t.user == requester
    ensures UniqueIds(store + [t]) && DeleteTask(store + [t], t.id, requester).store == store
  {
    var created := store + [t];
    assert created[|store|] == t;
    assert UniqueIds(created);
    FoundIsUnique(created, t.id, |store|);
    var p := (x: Task) => x.id != t.id;
    FilterAppend(store, [t], p);
    FilterKeepsAllWhenAllPass(store, p);
    assert Filter([t], p) == [];
  }
}

=== FILE: task_form.dfy ===
/** The task editor of frontend/src/pages/TaskForm.tsx: the title check, the
    payload built on submit, the choice between creating and updating, the
    prefill from a loaded task, and clearing the title error while typing. */
module TaskForm {

  import opened Common

  /** The form's fields, all held as text; dueDate is a "YYYY-MM-DD" day or "". */
  datatype Form = Form(title: string, description: string, status: string, dueDate: string)

  const Blank: Form := Form("", "", "Pending", "")

  const TitleRequired := "Title is required"

  /** validateForm: the title error, and whether the form may be sent. */
  function ValidateForm(f: Form): (r: (string, bool))
    ensures r.1 <==> !AllWhitespace(f.title)
    ensures r.0 == (if r.1 then "" else TitleRequired)
  {
    if Trim(f.title) == "" then (TitleRequired, false) else ("", true)
  }

  /** The body sent to the API: the form's fields, with an empty dueDate left out. */
  datatype Payload = Payload(title: string, description: string, status: string, dueDate: Option<string>)

  function ToPayload(f: Form): (p: Payload)
    ensures p.title == f.title && p.description == f.description && p.status == f.status
    ensures p.dueDate.None? <==> f.dueDate == ""
    ensures p.dueDate.Some? ==> p.dueDate.value == f.dueDate
  {
    Payload(f.title, f.description, f.status, if f.dueDate == "" then None else Some(f.dueDate))
  }

  datatype Call = CreateCall(payload: Payload) | UpdateCall(id: string, payload: Payload)

  /** The route's `id` makes the form an editor when present and non-empty. */
  predicate IsEditMode(routeId: Option<string>) {
    routeId.Some? && routeId.value != ""
  }

  /** handleSubmit: nothing is sent when the title is blank; otherwise an
      update of the routed task in edit mode and a creation otherwise. */
  function HandleSubmit(f: Form, routeId: Option<string>): (r: (string, Option<Call>))
    ensures r.1.None? <==> AllWhitespace(f.title)
    ensures r.1.None? ==> r.0 == TitleRequired
    ensures r.1.Some? ==> r.0 == "" && r.1.value.payload == ToPayload(f)
    ensures r.1.Some? ==> (r.1.value.UpdateCall? <==> IsEditMode(routeId))
    ensures r.1.Some? && r.1.value.UpdateCall? ==> r.1.value.id == routeId.value
  {
    var (error, isValid) := ValidateForm(f);
    if !isValid then (error, None)
    else if IsEditMode(routeId) then ("", Some(UpdateCall(routeId.value, ToPayload(f))))
    else ("", Some(CreateCall(ToPayload(f))))
  }

  /** The loaded task as the prefill sees it; dueDay is its due date already
      written as "YYYY-MM-DD". */
  datatype Loaded = Loaded(title: Option<string>, description: Option<string>, status: Option<string>, dueDay: Option<string>)

  /** `value || fallback` on an optional string. */
  function OrElse(value: Option<string>, fallback: string): (r: string)
    ensures value.Some? && value.value != "" ==> r == value.value
    ensures value.None? || value.value == "" ==> r == fallback
  {
    if value.Some? && value.value != "" then value.value else fallback
  }

  /** The prefill effect: in edit mode, once the task is loaded, the form takes
      its values, with '' for a missing title, description or due date and
      'Pending' for a missing status; otherwise the form is kept. */
  function Prefill(current: Form, task: Option<Loaded>, routeId: Option<string>): (r: Form)
    ensures !(task.Some? && IsEditMode(routeId)) ==> r == current
    ensures task.Some? && IsEditMode(routeId) ==>
              && r.title == OrElse(task.value.title, "")
              && r.description == OrElse(task.value.description, "")
              && r.status == OrElse(task.value.status, "Pending")
              && r.dueDate == OrElse(task.value.dueDay, "")
  {
    if task.Some? && IsEditMode(routeId) then
      var t := task.value;
      Form(OrElse(t.title, ""), OrElse(t.description, ""), OrElse(t.status, "Pending"), OrElse(t.dueDay, ""))
    else current
  }

  datatype Field = Title | Description | Status | DueDate

  /** handleChange: the field takes the typed value, and typing in the title
      clears its error; other fields leave the error as it was. */
  function HandleChange(f: Form, titleError: string, field: Field, value: string): (r: (Form, string))
    ensures field == Title ==> r.0 == f.(title := value) && r.1 == ""
    ensures field != Title ==> r.1 == titleError
    ensures field == Description ==> r.0 == f.(description := value)
    ensures field == Status ==> r.0 == f.(status := value)
    ensures field == DueDate ==> r.0 == f.(dueDate := value)
  {
    match field
    case Title => (f.(title := value), if titleError != "" then "" else titleError)
    case Description => (f.(description := value), titleError)
    case Status => (f.(status := value), titleError)
    case DueDate => (f.(dueDate := value), titleError)
  }

  /** Saving a prefilled form unchanged sends the task's own values back as
      an update: its title and description, its status, and its due day or
      no due date at all. */
  lemma UnchangedEditResendsTask(task: Loaded, id: string)
    requires id != ""
    requires task.title.Some? && !AllWhitespace(task.title.value)
    ensures var f := Prefill(Blank, Some(task), Some(id));
            HandleSubmit(f, Some(id)).1
              == Some(UpdateCall(id, Payload(task.title.value, OrElse(task.description, ""),
                                             OrElse(task.status, "Pending"),
                                             if task.dueDay.Some? && task.dueDay.value != "" then task.dueDay else None)))
  {
    assert task.title.value != "";
  }

  /** Typing a title that is not blank clears the error and makes the form
      submittable; typing in another field changes neither. */
  lemma TypingTitleClearsError(f: Form, titleError: string, field: Field, value: string)
    ensures field == Title && !AllWhitespace(value) ==>
              var (g, e) := HandleChange(f, titleError, field, value);
              e == "" && ValidateForm(g) == ("", true)
    ensures field != Title ==> ValidateForm(HandleChange(f, titleError, field, value).0) == ValidateForm(f)
  {
  }

  /** A form with a blank title never reaches the API, whatever the mode. */
  lemma BlankTitleSendsNothing(f: Form, routeId: Option<string>)
    requires AllWhitespace(f.title)
    ensures HandleSubmit(f, routeId) == (TitleRequired, None)
  {
  }
}

=== FILE: task_item.dfy ===
/** The two lookups of frontend/src/components/tasks/TaskItem.tsx: the
    progress a status stands for and the badge class it is drawn with. Both
    take the status as text and fall back to the Pending look for anything
    unrecognised. */
module TaskItem {

  import opened Common
  import opened TaskModel

  /** getProgressFromStatus. */
  function ProgressFromStatus(status: string): (p: nat)
    ensures p <= 100
    ensures ParseStatus(status).None? ==> p == 0
    ensures p == 100 <==> ParseStatus(status) == Some(Completed)
    ensures p == 50 <==> ParseStatus(status) == Some(InProgress)
    ensures p == 0 <==> ParseStatus(status).None? || ParseStatus(status) == Some(Pending)
  {
    match ParseStatus(status)
    case Some(Pending) => 0
    case Some(InProgress) => 50
    case Some(Completed) => 100
    case None => 0
  }

  /** getStatusBadgeClass. */
  function StatusBadgeClass(status: string): (c: string)
    ensures ParseStatus(status).None? ==> c == "badge-pending"
    ensures c == "badge-pending" <==> ParseStatus(status).None? || ParseStatus(status) == Some(Pending)
    ensures c == "badge-progress" <==> ParseStatus(status) == Some(InProgress)
    ensures c == "badge-completed" <==> ParseStatus(status) == Some(Completed)
  {
    match ParseStatus(status)
    case Some(Pending) => "badge-pending"
    case Some(InProgress) => "badge-progress"
    case Some(Completed) => "badge-completed"
    case None => "badge-pending"
  }

  /** The order in which a task moves through its statuses. */
  function Stage(s: Status): nat {
    match s
    case Pending => 0
    case InProgress => 1
    case Completed => 2
  }

  /** Progress never falls as a task moves from Pending through In Progress
      to Completed, and each status has its own badge. */
  lemma ProgressFollowsStatus(a: Status, b: Status)
    ensures Stage(a) <= Stage(b) ==> ProgressFromStatus(StatusName(a)) <= ProgressFromStatus(StatusName(b))
    ensures a != b ==> StatusBadgeClass(StatusName(a)) != StatusBadgeClass(StatusName(b))
  {
    assert ParseStatus(StatusName(a)) == Some(a);
    assert ParseStatus(StatusName(b)) == Some(b);
  }

  /** A status the server never sends looks exactly like Pending. */
  lemma UnknownLooksPending(status: string)
    requires ParseStatus(status).None?
    ensures ProgressFromStatus(status) == ProgressFromStatus(StatusName(Pending))
    ensures StatusBadgeClass(status) == StatusBadgeClass(StatusName(Pending))
  {
  }
}

=== FILE: task_list.dfy ===
/** The combined filter of frontend/src/pages/TaskList.tsx: the status chosen
    in the filter bar, then the search box, over the cached task list. */
module TaskList {

  import opened Common
  import opened TaskModel
  import opened TaskContext

  /** Whether a task is on the page: it passes the status choice and the search. */
  predicate Shown(t: Task, statusFilter: string, searchTerm: string) {
    && (statusFilter == AllStatuses || StatusName(t.status) == statusFilter)
    && (searchTerm == "" || MatchesTerm(t, searchTerm))
  }

  function ShownBy(statusFilter: string, searchTerm: string): Task -> bool {
    (t: Task) => Shown(t, statusFilter, searchTerm)
  }

  /** The list the page shows for a status choice and a search term: every
      occurrence of a shown task, in list order. */
  function FilteredTasks(tasks: seq<Task>, statusFilter: string, searchTerm: string): (r: seq<Task>)
    ensures forall t :: t in r <==> t in tasks && Shown(t, statusFilter, searchTerm)
    ensures r == Filter(tasks, ShownBy(statusFilter, searchTerm))
    ensures IsSubsequence(r, tasks)
  {
    var byStatus := if statusFilter != AllStatuses then Filter(tasks, HasStatusName(statusFilter)) else tasks;
    var bySearch := if searchTerm != "" then Filter(byStatus, Matching(searchTerm)) else byStatus;
    FilteredIsSubsequence(tasks, statusFilter, searchTerm);
    FilteredIsOneFilter(tasks, statusFilter, searchTerm);
    bySearch
  }

  /** The two filters in turn keep exactly what the single page test keeps. */
  lemma FilteredIsOneFilter(tasks: seq<Task>, statusFilter: string, searchTerm: string)
    ensures var byStatus := if statusFilter != AllStatuses then Filter(tasks, HasStatusName(statusFilter)) else tasks;
            var bySearch := if searchTerm != "" then Filter(byStatus, Matching(searchTerm)) else byStatus;
            bySearch == Filter(tasks, ShownBy(statusFilter, searchTerm))
  {
    var shown := ShownBy(statusFilter, searchTerm);
    if statusFilter != AllStatuses && searchTerm != "" {
      FilterTwice(tasks, HasStatusName(statusFilter), Matching(searchTerm));
      FilterCongruent(tasks, Both(HasStatusName(statusFilter), Matching(searchTerm)), shown);
    } else if statusFilter != AllStatuses {
      FilterCongruent(tasks, HasStatusName(statusFilter), shown);
    } else if searchTerm != "" {
      FilterCongruent(tasks, Matching(searchTerm), shown);
    } else {
      FilterKeepsAllWhenAllPass(tasks, shown);
    }
  }

  lemma FilteredIsSubsequence(tasks: seq<Task>, statusFilter: string, searchTerm: string)
    ensures var byStatus := if statusFilter != AllStatuses then Filter(tasks, HasStatusName(statusFilter)) else tasks;
            var bySearch := if searchTerm != "" then Filter(byStatus, Matching(searchTerm)) else byStatus;
            IsSubsequence(bySearch, tasks)
  {
    FilterTwiceIsSubsequence(tasks, HasStatusName(statusFilter), Matching(searchTerm));
    FilterIsSubsequence(tasks, HasStatusName(statusFilter));
    FilterIsSubsequence(tasks, Matching(searchTerm));
    SubsequenceReflexive(tasks);
  }

  /** The page's filter is the context's status filter followed by its search. */
  lemma SameAsContextQueries(tasks: seq<Task>, statusFilter: string, searchTerm: string)
    ensures FilteredTasks(tasks, statusFilter, searchTerm) == SearchTasks(FilterTasks(tasks, statusFilter), searchTerm)
    ensures FilteredTasks(tasks, statusFilter, searchTerm) == FilterTasks(SearchTasks(tasks, searchTerm), statusFilter)
  {
    FilterAndSearchCommute(tasks, statusFilter, searchTerm);
  }

  /** With "All" and an empty search the whole list is shown, in order. */
  lemma NoFilterShowsAll(tasks: seq<Task>)
    ensures FilteredTasks(tasks, AllStatuses, "") == tasks
  {
  }
}

=== FILE: task_model.dfy ===
/** The Task document of backend/models/taskModel.js: field types, the status
    enumeration and its default, the trimming setters on title and description,
    the required title, and the automatic createdAt/updatedAt timestamps. */
module TaskModel {

  import opened Common

  type UserId = nat
  type TaskId = nat

  /** Milliseconds since the epoch, as stored in a Date field. */
  type Timestamp = int

  /** The length of a day in Timestamp units. */
  const DayMs: int := 24 * 60 * 60 * 1000

  datatype Status = Pending | InProgress | Completed

  /** The string each enumeration value is stored and transmitted as. */
  function StatusName(s: Status): string {
    match s
    case Pending => "Pending"
    case InProgress => "In Progress"
    case Completed => "Completed"
  }

  /** The enumeration value a string denotes, if it is one of the three names. */
  function ParseStatus(name: string): (r: Option<Status>)
    ensures forall s :: r == Some(s) <==> StatusName(s) == name
  {
    if name == "Pending" then Some(Pending)
    else if name == "In Progress" then Some(InProgress)
    else if name == "Completed" then Some(Completed)
    else None
  }

  lemma StatusNamesDistinct(a: Status, b: Status)
    ensures StatusName(a) == StatusName(b) ==> a == b
  {
    assert ParseStatus(StatusName(a)) == Some(a);
  }

  datatype Attachment = Attachment(filename: string, originalName: string, mimetype: string, size: int, url: string)

  /** A stored task. `owner` is declared required by the schema, but the create
      handler never supplies it, so stored tasks may lack it. */
  datatype Task = Task(
    id: TaskId,
    owner: Option<UserId>,
    user: UserId,
    title: string,
    description: Option<string>,
    status: Status,
    dueDate: Option<Timestamp>,
    sharedWith: seq<UserId>,
    attachments: seq<Attachment>,
    createdAt: Timestamp,
    updatedAt: Timestamp)

  /** The schema's constraints on a stored document (the status enumeration is
      enforced by the type): a non-empty trimmed title, a trimmed description,
      and a creation time no later than the last update. */
  predicate Conforms(t: Task) {
    && t.title != ""
    && IsTrimmed(t.title)
    && (t.description.Some? ==> IsTrimmed(t.description.value))
    && t.createdAt <= t.updatedAt
  }

  /** Why Mongoose refuses one path of a document. */
  datatype SchemaError =
    | TitleRequired             // 'Please add a title'
    | StatusNotInEnum(value: string)
  {
    /** The schema path the validator belongs to. */
    function Path(): string {
      match this
      case TitleRequired => "title"
      case StatusNotInEnum(_) => "status"
    }

    /** The ValidatorError's own message. */
    function Message(): string {
      match this
      case TitleRequired => "Please add a title"
      case StatusNotInEnum(v) => "`" + v + "` is not a valid enum value for path `status`."
    }
  }

  /** The ValidationError thrown by Task.create and save(): every failing path,
      in schema order. */
  datatype ValidationError = ValidationError(failures: seq<SchemaError>)
  {
    /** 'Task validation failed: ' followed by `path: message` for each
        failing path, separated by ', '. */
    function Message(): string {
      "Task validation failed: " + PathMessages(failures)
    }
  }

  function PathMessages(failures: seq<SchemaError>): string {
    if |failures| == 0 then ""
    else if |failures| == 1 then failures[0].Path() + ": " + failures[0].Message()
    else failures[0].Path() + ": " + failures[0].Message() + ", " + PathMessages(failures[1..])
  }

  /** The failures of validating the title and the status paths, title first. */
  function Failures(title: Result<string, SchemaError>, status: Result<Status, SchemaError>): (r: seq<SchemaError>)
    ensures |r| == 0 <==> title.Ok? && status.Ok?
    ensures forall e :: e in r <==> (title.Err? && e == title.error) || (status.Err? && e == status.error)
    ensures title.Err? ==> r[0] == title.error
    ensures |r| <= 2
  {
    (if title.Err? then [title.error] else []) + (if status.Err? then [status.error] else [])
  }

  /** A blank title alone is reported under its path with the schema's message. */
  lemma BlankTitleMessage(title: string)
    requires AllWhitespace(title)
    ensures ValidationError(Failures(CastTitle(Some(title)), CastStatus(None))).Message()
            == "Task validation failed: title: Please add a title"
  {
    assert Failures(CastTitle(Some(title)), CastStatus(None)) == [TitleRequired];
    assert PathMessages([TitleRequired]) == "title" + ": " + "Please add a title";
  }

  /** The fields a handler passes to Task.create; absent ones are `None`. */
  datatype NewTaskFields = NewTaskFields(
    user: UserId,
    title: Option<string>,
    description: Option<string>,
    status: Option<string>,
    dueDate: Option<Timestamp>)

  /** The title after the `trim` setter, refused when missing or blank. */
  function CastTitle(title: Option<string>): (r: Result<string, SchemaError>)
    ensures r.Ok? <==> title.Some? && !AllWhitespace(title.value)
    ensures r.Ok? ==> r.value != "" && IsTrimmed(r.value) && r.value == Trim(title.value)
    ensures r.Err? ==> r.error == TitleRequired
  {
    if title.None? then Err(TitleRequired)
    else
      var t := Trim(title.value);
      if t == "" then Err(TitleRequired) else Ok(t)
  }

  /** The status after casting: the default when absent, refused when not one
      of the three names. */
  function CastStatus(status: Option<string>): (r: Result<Status, SchemaError>)
    ensures status.None? ==> r == Ok(Pending)
    ensures status.Some? ==> (r.Ok? <==> ParseStatus(status.value).Some?)
    ensures r.Ok? && status.Some? ==> StatusName(r.value) == status.value
    ensures r.Err? ==> r.error == StatusNotInEnum(status.value)
  {
    match status
    case None => Ok(Pending)
    case Some(name) =>
      match ParseStatus(name)
      case Some(s) => Ok(s)
      case None => Err(StatusNotInEnum(name))
  }

  function CastDescription(description: Option<string>): (r: Option<string>)
    ensures r.Some? <==> description.Some?
    ensures r.Some? ==> r.value == Trim(description.value) && IsTrimmed(r.value)
  {
    match description
    case None => None
    case Some(d) => Some(Trim(d))
  }

  /** Task.create: a new document with both timestamps set to `now`, no owner,
      no shares and no attachments, or the reason the schema refuses it. */
  function CreateDocument(id: TaskId, fields: NewTaskFields, now: Timestamp): (r: Result<Task, ValidationError>)
    ensures r.Ok? <==> CastTitle(fields.title).Ok? && CastStatus(fields.status).Ok?
    ensures r.Err? ==> r.error.failures == Failures(CastTitle(fields.title), CastStatus(fields.status))
    ensures r.Ok? ==> Conforms(r.value)
    ensures r.Ok? ==> && r.value.id == id && r.value.user == fields.user
                      && r.value.owner.None? && r.value.sharedWith == [] && r.value.attachments == []
                      && r.value.title == Trim(fields.title.value)
                      && r.value.description == (if fields.description.Some? then Some(Trim(fields.description.value)) else None)
                      && r.value.dueDate == fields.dueDate
                      && r.value.createdAt == now && r.value.updatedAt == now
    ensures r.Ok? && fields.status.None? ==> r.value.status == Pending
    ensures r.Ok? && fields.status.Some? ==> StatusName(r.value.status) == fields.status.value
  {
    var title := CastTitle(fields.title);
    var status := CastStatus(fields.status);
    if title.Err? || status.Err? then Err(ValidationError(Failures(title, status)))
    else
      Ok(Task(id, None, fields.user, title.value, CastDescription(fields.description), status.value,
              fields.dueDate, [], [], now, now))
  }
}

=== FILE: task_routes.dfy ===
/** The router of backend/routes/taskRoutes.js: the middleware chain in front
    of each task route, the express-validator checks on create and share, and
    the dispatch of an authenticated request to its handler. */
module TaskRoutes {

  import opened Common
  import opened Http
  import opened TaskModel
  import opened TaskController

  datatype Verb = Get | Post | Put | Delete

  datatype Stage = Protect | CheckTitle | CheckStatus | CheckUserIds

  datatype Handler = ListTasks | ListSharedTasks | CreateOne | ReadOne | UpdateOne | DeleteOne | ShareOne

  datatype Route = Route(verb: Verb, path: string, chain: seq<Stage>, handler: Handler)

  /** The routes in declaration order, each with the stages run before its handler. */
  const Routes: seq<Route> := [
    Route(Get, "/", [Protect], ListTasks),
    Route(Post, "/", [Protect, CheckTitle, CheckStatus], CreateOne),
    Route(Get, "/shared", [Protect], ListSharedTasks),
    Route(Get, "/:id", [Protect], ReadOne),
    Route(Put, "/:id", [Protect], UpdateOne),
    Route(Delete, "/:id", [Protect], DeleteOne),
    Route(Put, "/:id/share", [Protect, CheckUserIds], ShareOne)
  ]

  /** Every route authenticates first, and only create and share validate a body. */
  lemma RoutesAreProtected()
    ensures forall r :: r in Routes ==> |r.chain| > 0 && r.chain[0] == Protect
    ensures forall r :: r in Routes && r.handler in {UpdateOne, DeleteOne} ==> r.chain == [Protect]
  {
  }

  // ---------------------------------------------------------------------------
  // Validators
  // ---------------------------------------------------------------------------

  const TitleRequiredMessage := "Title is required"
  const StatusMessage := "Status must be Pending, In Progress, or Completed"
  const UserIdsMessage := "User IDs array is required"

  /** The messages the create route's validators collect: `title` must be
      present and non-empty (it is not trimmed here), `status` may be absent
      but otherwise must be one of the three names. */
  function CreateValidationErrors(body: TaskBody): (errors: seq<string>)
    ensures |errors| == 0 <==> && body.title.Some? && body.title.value != ""
                                && (body.status.None? || ParseStatus(body.status.value).Some?)
    ensures TitleRequiredMessage in errors <==> body.title.None? || body.title.value == ""
    ensures StatusMessage in errors <==> body.status.Some? && ParseStatus(body.status.value).None?
  {
    var titleErrors := if body.title.None? || body.title.value == "" then [TitleRequiredMessage] else [];
    var statusErrors := if body.status.Some? && ParseStatus(body.status.value).None? then [StatusMessage] else [];
    titleErrors + statusErrors
  }

  /** The `userIds` field of a share request body. */
  datatype UserIdsField = Absent | NotAnArray | Ids(ids: seq<UserId>)

  /** The share route's validator: `userIds` must be an array of at least one element. */
  function ShareValidationErrors(userIds: UserIdsField): (errors: seq<string>)
    ensures |errors| == 0 <==> userIds.Ids? && |userIds.ids| >= 1
    ensures |errors| > 0 ==> errors == [UserIdsMessage]
  {
    if userIds.Ids? && |userIds.ids| >= 1 then [] else [UserIdsMessage]
  }

  // ---------------------------------------------------------------------------
  // Dispatch
  // ---------------------------------------------------------------------------

  /** A request to one of the routes whose handler the controller defines. */
  datatype Request =
    | List
    | Create(body: TaskBody)
    | Read(id: TaskId)
    | Update(id: TaskId, body: TaskBody)
    | Remove(id: TaskId)

  datatype Payload = Tasks(tasks: seq<Task>) | OneTask(task: Task) | Message(text: string)

  function WrapTask(r: Reply<Task>): Reply<Payload> {
    Reply(r.store, match r.result case Ok(t) => Ok(OneTask(t)) case Err(e) => Err(e))
  }

  /** The reply of the task router. `caller` is the user `protect` resolved
      from the request's credential, if any; `newId` is the id the database
      would give a created document and `now` the time of the request. */
  function Dispatch(store: Store, caller: Option<UserId>, req: Request, newId: TaskId, now: Timestamp): (r: Reply<Payload>)
    requires UniqueIds(store) && !HasId(store, newId)
    ensures caller.None? ==> r == Reply(store, Err(Unauthenticated))
    ensures r.result.Err? ==> r.store == store
    ensures req.Create? && caller.Some? && (req.body.title.None? || req.body.title.value == "")
            ==> r.result == Err(InvalidTaskData)
    ensures req.Create? && caller.Some? && req.body.status.Some? && ParseStatus(req.body.status.value).None?
            ==> r.result == Err(InvalidTaskData)
    ensures req.Update? && caller.Some?
            ==> r.store == UpdateTask(store, req.id, caller.value, req.body, now).store
    ensures req.List? || req.Read? ==> r.store == store
    ensures caller.Some? && req.List? ==> r == Reply(store, Ok(Tasks(GetTasks(store, caller.value))))
    ensures caller.Some? && req.Read? ==>
              match GetTaskById(store, req.id, caller.value)
              case Ok(t) => r == Reply(store, Ok(OneTask(t)))
              case Err(e) => r == Reply(store, Err(e))
    ensures caller.Some? && req.Create? ==>
              var c := CreateTask(store, caller.value, req.body, CreateValidationErrors(req.body), newId, now);
              && r.store == c.store
              && (r.result.Ok? <==> c.result.Ok?)
              && (c.result.Ok? ==> r.result.value == OneTask(c.result.value))
              && (c.result.Err? ==> r.result.error == c.result.error)
    ensures caller.Some? && req.Update? ==>
              var u := UpdateTask(store, req.id, caller.value, req.body, now);
              && (r.result.Ok? <==> u.result.Ok?)
              && (u.result.Ok? ==> r.result.value == OneTask(u.result.value))
              && (u.result.Err? ==> r.result.error == u.result.error)
    ensures caller.Some? && req.Remove? ==>
              var d := DeleteTask(store, req.id, caller.value);
              && r.store == d.store
              && (r.result.Ok? <==> d.result.Ok?)
              && (d.result.Ok? ==> r.result.value == Message(d.result.value))
              && (d.result.Err? ==> r.result.error == d.result.error)
  {
    match caller
    case None => Reply(store, Err(Unauthenticated))
    case Some(user) =>
      match req
      case List => Reply(store, Ok(Tasks(GetTasks(store, user))))
      case Create(body) =>
        WrapTask(CreateTask(store, user, body, CreateValidationErrors(body), newId, now))
      case Read(id) =>
        Reply(store, match GetTaskById(store, id, user) case Ok(t) => Ok(OneTask(t)) case Err(e) => Err(e))
      case Update(id, body) => WrapTask(UpdateTask(store, id, user, body, now))
      case Remove(id) =>
        var d := DeleteTask(store, id, user);
        Reply(d.store, match d.result case Ok(m) => Ok(Message(m)) case Err(e) => Err(e))
  }

  /** A title of spaces passes the route's check, which does not trim, and is
      refused only when the schema's trimming setter has emptied it. */
  lemma BlankTitleReachesSchema(store: Store, user: UserId, newId: TaskId, now: Timestamp)
    requires UniqueIds(store) && !HasId(store, newId)
    ensures var body := TaskBody(Some("  "), None, None, None);
            && CreateValidationErrors(body) == []
            && Dispatch(store, Some(user), Create(body), newId, now) == Reply(store, Err(Uncaught("Task validation failed: title: Please add a title")))
  {
    var body := TaskBody(Some("  "), None, None, None);
    assert AllWhitespace(body.title.value);
    BlankTitleMessage(body.title.value);
  }

  /** The handler the router hands a request to. */
  function HandlerOf(req: Request): Handler {
    match req
    case List => ListTasks
    case Create(_) => CreateOne
    case Read(_) => ReadOne
    case Update(_, _) => UpdateOne
    case Remove(_) => DeleteOne
  }

  /** The first route in `routes` whose handler is `h`. */
  function FindRoute(routes: seq<Route>, h: Handler): (r: Option<Route>)
    ensures r.Some? ==> r.value in routes && r.value.handler == h
    ensures r.None? <==> forall k :: 0 <= k < |routes| ==> routes[k].handler != h
  {
    if |routes| == 0 then None
    else if routes[0].handler == h then Some(routes[0])
    else FindRoute(routes[1..], h)
  }

  /** Every request Dispatch serves has a route in the table, that route runs
      `protect` first, and without a credential Dispatch answers 401 and
      leaves the collection as it was. */
  lemma DispatchFollowsRoutes(store: Store, req: Request, newId: TaskId, now: Timestamp)
    requires UniqueIds(store) && !HasId(store, newId)
    ensures var route := FindRoute(Routes, HandlerOf(req));
            && route.Some?
            && |route.value.chain| > 0 && route.value.chain[0] == Protect
            && Dispatch(store, None, req, newId, now) == Reply(store, Err(Unauthenticated))
  {
    RoutesAreProtected();
    var h := HandlerOf(req);
    assert exists k :: 0 <= k < |Routes| && Routes[k].handler == h by {
      match req
      case List => assert Routes[0].handler == h;
      case Create(_) => assert Routes[1].handler == h;
      case Read(_) => assert Routes[3].handler == h;
      case Update(_, _) => assert Routes[4].handler == h;
      case Remove(_) => assert Routes[5].handler == h;
    }
  }
}
